=== FILE: README.md ===
# NOMAD plugin catalog: the `Plugin` schema's normalisation, in Dafny

The `nomad-plugins` package keeps a catalog of NOMAD plugins. A `Plugin` entry
is filled in from its GitHub repository during `normalize`:

- the repository's `pyproject.toml` is read through the GitHub contents API
  (`get_toml`);
- the project name, description, authors and maintainers are copied;
- the declared dependencies that are NOMAD plugins themselves become
  `PluginReference`s (`find_dependencies`);
- each reference is linked to its catalog entry through a search
  (`PluginReference.normalize`);
- PyPI is asked whether the package is published (`on_pypi` and the lab ids);
- the two NOMAD distribution manifests on GitLab are asked whether they ship
  the plugin (`on_gitlab_oasis`, giving `on_central` and `on_example_oasis`).

This project models those steps as pure functions over immutable datatypes
and proves what they promise.

The network, the TOML parser and the catalog search are not modelled. Instead,
an `Env` value supplies them, each as a function from request to reply:

- GitHub's reply carries the status, the `content` field, the already decoded
  manifest or `None` when decoding/parsing fails, and the `message` field;
- PyPI's reply carries the status and `info.requires_dist`;
- GitLab's reply carries the status, the body text and the parsed manifest;
- the search reply carries the total and the hits;
- the environment also holds the API token, whether the archive lives in a
  server context, and the current time.

A Python exception is modelled as a `raised` value returned next to the
record. Because the record is mutated in place, fields assigned before the
exception keep their new values.

Modules, in dependency order:

- `Wrappers`: `Option` and `Result`.
- `Text`: Python's `str.isspace`, `split()`, `' '.join`, `in`, `find` and
  `replace`.
- `Manifests`: the parsed `pyproject.toml`.
- `Diagnostics`: the messages logged and the exceptions raised.
- `Network`: `requests`' `ok` (a status outside 400–599) and the
  environment.
- `Authors`: `nomad_author`.
- `Requirements`: the two regular expressions over dependency declarations.
- `GitHub`: `get_toml`.
- `Catalog`: `PluginReference.normalize`.
- `Oasis`: `on_gitlab_oasis`.
- `Dependencies`: `Plugin.find_dependencies`.
- `Plugins`: `Plugin.normalize`.

The regular expressions are modelled with their exact Python semantics:

- `^[^;>=<\s]+` is a maximal run of non-stop characters. `\s` is the set of
  characters that `str.isspace` accepts.
- `@ git\+(.*?)\.git(?:@[^#]+)?(?:#subdirectory=(.*))?` is applied with
  `search`:
  - the leftmost start wins;
  - the lazy group ends at the first `.git`;
  - `.` stops only at a newline.
- In `https://github.com/([^/]+)/([^/]+)` the dot is not escaped, so any
  character except a newline matches there. For example,
  `https://githubXcom/a/b` has owner `a`.

Where the code does something other than what its design suggests, the model
follows the code:

- A one-word author name is dropped.
- An invalid repository URL logs a warning and then raises on `match.group`.
- A git dependency whose manifest cannot be fetched raises on `.get`.
- Dependency discovery is one level deep.
- The GitLab body is parsed even after a failed fetch.
- The distribution flags are looked up only while unknown.

## Model

| member | source | states |
|---|---|---|
| Authors.ToNomadAuthor | src/nomad_plugins/schema_packages/plugin.py:35-43 | the email defaults to empty; a name with fewer than two whitespace-separated tokens gives empty first and last names; otherwise the last name is the last token |
| Authors.NameOfWords | src/nomad_plugins/schema_packages/plugin.py:36-38 | for words separated by single spaces, the last name is the last word and the first name is the earlier words re-joined with single spaces; a name of at most one word gives two empty names |
| Authors.TwoWordExample | src/nomad_plugins/schema_packages/plugin.py:36-38 | `Ada Lovelace` splits into `Ada` and `Lovelace`, and a missing email becomes empty |
| Authors.OneWordExample | src/nomad_plugins/schema_packages/plugin.py:37-38 | a single-word name gives empty first and last names while the email is kept |
| Text.WordsOfJoin | src/nomad_plugins/schema_packages/plugin.py:36-37 | `split()` recovers the words that `' '.join` put together, when no word holds whitespace |
| Text.Words | src/nomad_plugins/schema_packages/plugin.py:36 | every part that `split()` returns is a non-empty run of non-whitespace characters |
| Text.WordsOfBlank | src/nomad_plugins/schema_packages/plugin.py:36-37 | `split()` returns no parts exactly when the name is empty or all whitespace, which is when `nomad_author` takes its `else ''` branch |
| Text.WordsOfCons | src/nomad_plugins/schema_packages/plugin.py:36 | after leading whitespace, a word that ends at whitespace or at the end of the string is the first part, and splitting resumes after it; with Text.WordsOfBlank this pins down the parts as the maximal non-whitespace runs, in order |
| Text.ReplaceAll | src/nomad_plugins/schema_packages/plugin.py:52-55 | `str.replace` leaves a string with no occurrence of the pattern unchanged; the rewriting case is stated only through Text.ReplaceAllFront and GitHub.ContentsUrlOfRepository |
| Requirements.PackageName | src/nomad_plugins/schema_packages/plugin.py:165-169 | there is no match exactly when the declaration is empty or starts with `;`, `>`, `=`, `<` or whitespace; otherwise the name is the longest non-empty prefix free of those characters |
| Requirements.PackageNameOf | src/nomad_plugins/schema_packages/plugin.py:165-169 | a stop-free name followed by nothing, or by text that starts with a stop character, yields exactly that name |
| Requirements.PackageNameExamples | src/nomad_plugins/schema_packages/plugin.py:165-169 | `foo~=1` gives `foo~` and `foo>=1.0` gives `foo`, since only `;><=` and whitespace end the name; `>=1` and the empty declaration have no name |
| Requirements.GitReference | src/nomad_plugins/schema_packages/plugin.py:166-173 | a match implies the declaration contains `@ git+` + location + `.git`; the location holds no newline and no `.git`; without `@ git+` there is no match, so the declaration takes the PyPI branch |
| Requirements.GitSearchFrom | src/nomad_plugins/schema_packages/plugin.py:166-170 | `search` from a start index: a found location holds no newline and no `.git`, as the lazy group up to the first `.git` gives |
| Requirements.GitSearchFromFacts | src/nomad_plugins/schema_packages/plugin.py:166-170 | `search` from a start index finds the leftmost match: at the result's index `@ git+`, the location and `.git` occur together, the text after `.git` is what remains of the declaration, and no earlier index from the start has a match; with no result, no index from the start has one |
| Requirements.GitSearchHere | src/nomad_plugins/schema_packages/plugin.py:166-170 | a match starting at the search's first index is the one returned, with its location and the rest of the declaration after `.git` |
| Requirements.GitTailAtFacts | src/nomad_plugins/schema_packages/plugin.py:166 | the lazy group: a tail match ends at the first `.git` after the start, is a slice of the declaration, holds no newline and no other `.git`, and the text after it is the rest of the declaration |
| Requirements.ParseGitDeclaration | src/nomad_plugins/schema_packages/plugin.py:166-175 | for `name @ git+url.git[@ref][#subdirectory=sub]` (no `@` in the name, no `.git` or newline in the url, no `#` in the ref), the location is `url`, the ref is skipped and group 2 is exactly `sub` or absent |
| GitHub.ContentsUrl | src/nomad_plugins/schema_packages/plugin.py:47-64 | a URL that does not contain `https://github.com` is requested as given, followed by `/contents/`, the subdirectory with `/` when given, and `pyproject.toml` |
| GitHub.ContentsUrlOfRepository | src/nomad_plugins/schema_packages/plugin.py:47-62 | the request for `https://github.com<path>` goes to `https://api.github.com/repos<path>/contents/`, then `<subdirectory>/` when given, then `pyproject.toml` |
| GitHub.ContentsUrlOtherHost | src/nomad_plugins/schema_packages/plugin.py:52-62 | a URL without `https://github.com` is not rewritten |
| GitHub.AuthHeaders | src/nomad_plugins/schema_packages/plugin.py:56-60 | the headers are empty exactly when no token is configured; otherwise there is one `Authorization: token <t>` header |
| GitHub.GetToml | src/nomad_plugins/schema_packages/plugin.py:65-85 | a table is returned iff the reply is ok with non-empty content that parses; there is a message iff the status is not ok; 403 gives only the rate-limit message; another failing status gives one failure message carrying the upstream message or `No message`; ok but empty content gives neither; unparsable content raises |
| Oasis.PackageNames | src/nomad_plugins/schema_packages/plugin.py:100-102 | the list comprehension succeeds iff every entry has a package name, and then it lists them in order; otherwise it raises on an entry of the list |
| Oasis.OnGitlabOasis | src/nomad_plugins/schema_packages/plugin.py:88-102 | a warning is issued exactly when the fetch is not ok; an unparsable body raises as unparsable; a body without `project.optional-dependencies.plugins` raises as missing the group; otherwise an answer comes back iff every entry has a package name (else it raises on one of the entries), and the answer is true iff the plugin name is given and equals the package name of some entry |
| Oasis.StatusOnlyWarns | src/nomad_plugins/schema_packages/plugin.py:92-99 | the status does not affect the answer: two replies with the same body give the same result |
| Oasis.ListedWithConstraint | src/nomad_plugins/schema_packages/plugin.py:100-102 | an entry that is the name followed by a version constraint makes the plugin listed |
| Dependencies.ResolveDependency | src/nomad_plugins/schema_packages/plugin.py:168-196 | a kept declaration stands for its reference: the package name, and either the git location with its non-empty subdirectory whose manifest lists `nomad-lab`, or the PyPI project page after an ok lookup whose `requires_dist` lists `nomad-lab`; the reference comes back already linked. A declaration is skipped iff it has a name and either its git manifest was read and lists no `nomad-lab`, or PyPI does not list `nomad-lab` for it. A declaration that stands for a plugin is linked: it is kept with the linked reference, or stops with the search's exception. A git manifest that cannot be fetched raises as missing; an ok reply whose content does not decode raises as unparsable. A missing name raises and only that; every other exception is an empty search page or a git dependency that stands for nothing |
| Dependencies.Steps | src/nomad_plugins/schema_packages/plugin.py:168-196 | the loop body is applied to every declaration in order, one outcome per declaration |
| Dependencies.Run | src/nomad_plugins/schema_packages/plugin.py:167-196 | running the outcomes in order yields at most one reference per outcome, and an exception exactly when some outcome raised |
| Dependencies.FindDependencies | src/nomad_plugins/schema_packages/plugin.py:159-196 | at most one reference per declaration; the loop raises exactly when some declaration raises |
| Dependencies.RunFirstStop | src/nomad_plugins/schema_packages/plugin.py:167-196 | the first raising outcome ends the run with its exception and the references of the outcomes before it |
| Dependencies.FirstStopEndsLoop | src/nomad_plugins/schema_packages/plugin.py:167-196 | the first declaration that raises ends the loop: its exception comes back, with the references of the declarations before it |
| Dependencies.RunAppend | src/nomad_plugins/schema_packages/plugin.py:167-196 | running the steps of `a + b` runs those of `a`, then, unless `a` raised, those of `b` |
| Dependencies.FindDependenciesAppend | src/nomad_plugins/schema_packages/plugin.py:167-196 | the references of `a + b` are those of `a` followed by those of `b`, in declaration order, unless `a` raised |
| Dependencies.RunRefsAreKept | src/nomad_plugins/schema_packages/plugin.py:190-196 | every reference produced is the reference of some kept step |
| Dependencies.FoundAreJustified | src/nomad_plugins/schema_packages/plugin.py:168-196 | every reference found stands for one of the declarations |
| Dependencies.OneDeclaration | src/nomad_plugins/schema_packages/plugin.py:168-196 | a single declaration gives its reference when kept and nothing otherwise, and the loop raises its exception exactly when it stops |
| Dependencies.NoDeduplication | src/nomad_plugins/schema_packages/plugin.py:190-196 | a plugin declared twice is referenced twice |
| Catalog.LinkReference | src/nomad_plugins/schema_packages/plugin.py:262-286 | outside a server context nothing changes; only `plugin` ever changes; with a positive total and hits, `plugin` links to `../uploads/{upload}/archive/{entry}#data` of the first hit, with a warning iff the total exceeds one; a positive total with an empty page raises with no warning; a total of zero or less only warns |
| Catalog.LinkIdempotent | src/nomad_plugins/schema_packages/plugin.py:269-279 | linking an already linked reference against the same catalog gives the same result |
| Plugins.RepositoryOwner | src/nomad_plugins/schema_packages/plugin.py:209-212 | an owner is found only for a URL that starts like the pattern's prefix; it is the non-empty, `/`-free text right after the prefix, followed by `/` and a non-`/` character |
| Plugins.RepositoryOwnerOf | src/nomad_plugins/schema_packages/plugin.py:209-212 | the owner of `https://github.com/<owner>/<repo>` is `<owner>` |
| Plugins.LookAlikeHostAccepted | src/nomad_plugins/schema_packages/plugin.py:209 | the unescaped dot lets `https://githubXcom/a/b` through with owner `a` |
| Plugins.FillFlag | src/nomad_plugins/schema_packages/plugin.py:233-242 | a known flag is kept with no lookup and no message; an unknown one takes the answer of `on_gitlab_oasis` for the name and URL, or stays unknown and carries the exception that lookup raised, with its messages |
| Plugins.CheckDistributions | src/nomad_plugins/schema_packages/plugin.py:233-242 | only the two distribution flags change and known flags keep their values; `on_central` is filled from the main distribution manifest and, unless that lookup raised, `on_example_oasis` from the test-oasis manifest, each as the flag lookup gives it |
| Plugins.Enrich | src/nomad_plugins/schema_packages/plugin.py:216-242 | the project fields are copied; `plugin_dependencies` is what the dependency search finds, and its exception ends the run with the lab ids and the flags untouched; otherwise a truthy name with an ok PyPI lookup sets `on_pypi` and adds the PyPI project page to the lab ids, any other case leaves both, and the distribution flags are checked; `on_pypi` never goes back to false |
| Plugins.FromManifest | src/nomad_plugins/schema_packages/plugin.py:213-242 | a readable manifest gives every effect of the later steps: project fields, dependencies and their exception, PyPI, lab ids and flags; an unreadable one leaves the record and the lab ids unchanged. An ok reply whose content does not decode raises as unparsable, with no message; a failing or empty reply raises nothing |
| Plugins.Normalize | src/nomad_plugins/schema_packages/plugin.py:198-242 | `created` is set only when unset, also without a repository; the lab ids are the repository, and a second id only after an ok PyPI lookup; when no manifest is read (no repository, an invalid URL, or a failed, rate-limited, empty or undecodable fetch) they are the repository alone, even when `on_pypi` was already true; `on_pypi` only becomes true; known flags are kept; without a repository nothing else happens; an invalid URL gives one warning and the exception, nothing else; the owner is the URL's first segment; once the manifest is read, the project fields, `plugin_dependencies`, the exception of the dependency search, the PyPI effects and the flags are as the later steps make them; otherwise those fields are untouched. With an owner, a manifest that does not decode raises as unparsable, and a failing or empty reply raises nothing |
| Plugins.FillFlagIdempotent | src/nomad_plugins/schema_packages/plugin.py:233-242 | looking a flag up again after it was filled changes nothing |
| Plugins.CheckDistributionsIdempotent | src/nomad_plugins/schema_packages/plugin.py:233-242 | checking the distributions a second time gives the same record, lab ids and exception |
| Plugins.EnrichIdempotent | src/nomad_plugins/schema_packages/plugin.py:216-242 | enriching an enriched record from the same manifest gives the same record, lab ids and exception |
| Plugins.NormalizeIdempotent | src/nomad_plugins/schema_packages/plugin.py:198-242 | normalising a normalised record against the same upstream data gives the same record, lab ids and exception |
| Plugins.EnrichIgnoresDependencies | src/nomad_plugins/schema_packages/plugin.py:216-227 | the previous `plugin_dependencies` do not affect enrichment |
| Plugins.StaleDependenciesDropped | src/nomad_plugins/schema_packages/plugin.py:213-227 | when the manifest is read, references left over from an earlier run do not survive: the result does not depend on them |
| Plugins.RateLimitedKeepsData | src/nomad_plugins/schema_packages/plugin.py:213-215 | a rate-limited manifest fetch sets only `created` and `owner`, emits only the rate-limit warning, raises nothing, and leaves the repository as the only lab id |

## Left out

- HTTP requests (GitHub, PyPI, GitLab) are not modelled: each reply is an input function of the environment.
- Base64 decoding and `toml.loads` are not modelled: the GitHub and GitLab replies carry the parsed manifest, or `None` when decoding or parsing raises.
- A manifest whose values have the wrong TOML types (a non-string `name`, a non-list `dependencies`) is not modelled; the manifest datatype is already typed.
- `datetime.datetime.now()` is the environment's `now`.
- A PyPI reply whose `info` is `null` is not modelled: the reply is already reduced to `requires_dist`.
- `search` is a function of the location. Its owner, pagination and `user_id` arguments are not modelled, and neither is `ServerContext`, which is a flag.
- Messages are a list of structured values, not formatted strings. They are not split into `logger.warn` and `print`: the GitHub fetch inside `find_dependencies` and `on_gitlab_oasis` are called without a logger and print their messages, and here those messages join the same list.
- `super().normalize`, the construction of `Results` and `ELN`, the metainfo `Quantity`/`SubSection` declarations and `m_package.__init_metainfo__()` are not modelled; the lab ids are returned as a list next to the record.
- `nomad_author` is modelled on its own; nothing in the normalisation calls it, since authors are copied from the manifest as they are.
- The GitHub token is a string of the environment, with the empty string for none. The entry-point class in `src/nomad_plugins/schema_packages/__init__.py` does not declare `github_api_token`, and that wiring is not part of this model.
- `src/nomad_plugins/apps/__init__.py` is search-UI configuration with no logic and is not part of this model.
- GitHub.GetToml: every GitHub reply body is taken to be a JSON object. A non-JSON body on a failing status (plugin.py:79) and a JSON list from the contents API (plugin.py:66) make `response.json()` or `.get` raise in the source; the model gives the failure message or reads `content` instead.
- GitHub.GetToml: a `message` that is JSON `null` is printed as `None` in the source; the model uses the `No message` default for it as for a missing key.
- Dependencies.ResolveDependency: a non-JSON PyPI body on an ok status raises in `response.json()` (plugin.py:183); the model reads `requires_dist` from it as if it parsed.
- Authors.ToNomadAuthor: the contract states the last name and the empty-name cases for any whitespace; the first name is stated only by Authors.NameOfWords, for names whose words are separated by single spaces.
- Requirements.GitReference: the contract bounds what a match can be; the exact result is stated by Requirements.ParseGitDeclaration for well-formed git declarations only.
- Text.ReplaceAll: its own contract covers only a string without the pattern; what the replacement produces is stated for a pattern at the front (Text.ReplaceAllFront) and for the one rewrite the program performs (GitHub.ContentsUrlOfRepository), not for every string.
- GitHub.ContentsUrlOfRepository: stated for `https://github.com` URLs whose path has no `:`, so no second `https://github.com` occurs in it; other URLs are covered only by GitHub.ContentsUrlOtherHost, which needs the prefix to be absent.

=== FILE: authors.dfy ===
/** `nomad_author`: a pyproject author entry as a NOMAD author. */
module Authors {
  import opened Wrappers
  import opened Text
  import opened Manifests

  datatype NomadAuthor = NomadAuthor(firstName: string, lastName: string, email: string)

  /** The name is split on whitespace. With two or more tokens the last is the
      last name and the rest, joined by single spaces, the first name; with
      fewer, both names are empty (a one-word name is dropped). */
  function ToNomadAuthor(a: PyprojectAuthor): (r: NomadAuthor)
    ensures r.email == a.email.GetOr("")
    ensures |Words(a.name.GetOr(""))| < 2 ==> r.firstName == "" && r.lastName == ""
    ensures var ws := Words(a.name.GetOr(""));
      |ws| >= 2 ==> IsWord(r.lastName) && r.lastName == ws[|ws| - 1]
  {
    var parts := Words(a.name.GetOr(""));
    var first := if |parts| > 0 then Join(parts[..|parts| - 1], " ") else "";
    var last := if |parts| > 1 then parts[|parts| - 1] else "";
    NomadAuthor(first, last, a.email.GetOr(""))
  }

  /** For a name made of words separated by single spaces: the last word is
      the last name and the others, re-joined, the first name; a name of at
      most one word gives two empty names. */
  lemma NameOfWords(ws: seq<string>, email: Option<string>)
    requires forall i :: 0 <= i < |ws| ==> IsWord(ws[i])
    ensures var r := ToNomadAuthor(PyprojectAuthor(Some(Join(ws, " ")), email));
      && (|ws| >= 2 ==> r.firstName == Join(ws[..|ws| - 1], " ") && r.lastName == ws[|ws| - 1])
      && (|ws| < 2 ==> r.firstName == "" && r.lastName == "")
  {
    WordsOfJoin(ws);
  }

  /** A two-word name splits into first and last name. */
  lemma TwoWordExample()
    ensures ToNomadAuthor(PyprojectAuthor(Some("Ada Lovelace"), None))
         == NomadAuthor("Ada", "Lovelace", "")
  {
    var ws := ["Ada", "Lovelace"];
    assert IsWord(ws[0]) && IsWord(ws[1]);
    assert Join(ws, " ") == "Ada" + " " + Join(["Lovelace"], " ");
    assert Join(ws, " ") == "Ada Lovelace";
    assert ws[..1] == ["Ada"];
    NameOfWords(ws, None);
  }

  /** A one-word name loses both parts; the email is kept. */
  lemma OneWordExample()
    ensures ToNomadAuthor(PyprojectAuthor(Some("Prince"), Some("p@x.org")))
         == NomadAuthor("", "", "p@x.org")
  {
    var ws := ["Prince"];
    assert IsWord(ws[0]);
    assert Join(ws, " ") == "Prince";
    NameOfWords(ws, Some("p@x.org"));
  }
}

=== FILE: catalog.dfy ===
/** `PluginReference` and its `normalize`: linking a dependency to the
    catalog entry of the plugin it names. */
module Catalog {
  import opened Wrappers
  import opened Diagnostics
  import opened Network

  /** `plugin` is the back-link to a catalog entry, kept as the reference
      string the source assigns. */
  datatype PluginReference = PluginReference(
    name: string,
    location: string,
    tomlDirectory: Option<string>,
    plugin: Option<string>)

  /** The archive reference `../uploads/{upload_id}/archive/{entry_id}#data`. */
  function ArchiveLink(h: Hit): string {
    "../uploads/" + h.uploadId + "/archive/" + h.entryId + "#data"
  }

  /** The reference after `normalize`, or what it raised, and the warnings. */
  datatype Linked = Linked(ref: Result<PluginReference, Raised>, logs: seq<Log>)

  /** `PluginReference.normalize`: outside a server context nothing happens.
      Otherwise the catalog is searched for entries whose lab ids hold the
      location: with hits, `plugin` links to the first one and a warning is
      logged exactly when there is more than one; with none, the only effect
      is the "no plugins" warning. No other field changes. */
  function LinkReference(env: Env, ref: PluginReference): (r: Linked)
    ensures !env.serverContext ==> r == Linked(Success(ref), [])
    ensures r.ref.Success? ==> r.ref.value.(plugin := ref.plugin) == ref
    ensures var found := env.search(ref.location);
      env.serverContext && found.total > 0 && |found.data| > 0 ==>
        && r.ref == Success(ref.(plugin := Some(ArchiveLink(found.data[0]))))
        && (r.logs == [] <==> found.total == 1)
        && (found.total > 1 ==> r.logs == [AmbiguousMatch(found.total, ref.location)])
    ensures var found := env.search(ref.location);
      env.serverContext && found.total <= 0 ==>
        r == Linked(Success(ref), [NoPluginFound(ref.location)])
    ensures var found := env.search(ref.location);
      env.serverContext && found.total > 0 && |found.data| == 0 ==>
        r == Linked(Failure(EmptySearchPage(ref.location)), [])
    ensures r.ref.Failure? ==> r.ref.error == EmptySearchPage(ref.location) && r.logs == []
  {
    if !env.serverContext then Linked(Success(ref), [])
    else
      var found := env.search(ref.location);
      if found.total > 0 then
        if |found.data| == 0 then Linked(Failure(EmptySearchPage(ref.location)), [])
        else
          var linked := ref.(plugin := Some(ArchiveLink(found.data[0])));
          if found.total > 1 then Linked(Success(linked), [AmbiguousMatch(found.total, ref.location)])
          else Linked(Success(linked), [])
      else Linked(Success(ref), [NoPluginFound(ref.location)])
  }

  /** Linking twice against the same catalog links the same way. */
  lemma LinkIdempotent(env: Env, ref: PluginReference)
    requires LinkReference(env, ref).ref.Success?
    ensures var once := LinkReference(env, ref).ref.value;
      LinkReference(env, once) == LinkReference(env, ref)
  {
    var once := LinkReference(env, ref).ref.value;
    assert once.location == ref.location;
  }
}

=== FILE: dependencies.dfy ===
/** `Plugin.find_dependencies`: which declared dependencies are NOMAD plugins
    themselves. A git dependency qualifies when its own manifest lists a
    `nomad-lab` dependency, any other when PyPI lists one in `requires_dist`.
    Discovery is one level deep: a git dependency's manifest is read, not
    walked. */
module Dependencies {
  import opened Wrappers
  import opened Text
  import opened Manifests
  import opened Diagnostics
  import opened Network
  import opened Requirements
  import opened GitHub
  import opened Catalog

  const NomadLab := "nomad-lab"

  /** `any('nomad-lab' in d for d in deps)`. */
  predicate MentionsNomad(deps: seq<string>) {
    exists i :: 0 <= i < |deps| && Contains(deps[i], NomadLab)
  }

  function PypiJsonUrl(name: string): string {
    "https://pypi.org/pypi/" + name + "/json"
  }

  function PypiProjectUrl(name: string): string {
    "https://pypi.org/project/" + name + "/"
  }

  /** The manifest GitHub serves for `location` is non-empty, parses, and
      lists a `nomad-lab` dependency. */
  predicate GitManifestMentionsNomad(env: Env, location: string, dir: Option<string>) {
    var resp := env.github(ContentsRequest(env.token, location, dir));
    && IsOk(resp.status)
    && resp.content != ""
    && resp.decoded.Some?
    && MentionsNomad(ProjectOf(resp.decoded.value).dependencies)
  }

  /** PyPI knows `name` and its `requires_dist` lists a `nomad-lab` dependency. */
  predicate PypiMentionsNomad(env: Env, name: string) {
    var resp := env.pypi(PypiJsonUrl(name));
    IsOk(resp.status) && resp.requiresDist.Some? && MentionsNomad(resp.requiresDist.value)
  }

  /** `r` is the reference the declaration `d` stands for when it is a
      plugin: its package name, and either the git location with its
      non-empty subdirectory or the PyPI project page. */
  predicate Justifies(env: Env, d: string, r: PluginReference) {
    && PackageName(d) == Some(r.name)
    && match GitReference(d)
       case Some(g) =>
         && r.location == g.location
         && r.tomlDirectory == NonEmpty(g.subdirectory)
         && GitManifestMentionsNomad(env, g.location, r.tomlDirectory)
       case None =>
         && r.location == PypiProjectUrl(r.name)
         && r.tomlDirectory == None
         && PypiMentionsNomad(env, r.name)
  }

  /** What one declaration contributes: a linked reference, nothing, or an
      exception; with the messages emitted while handling it. */
  datatype Step =
    | Kept(ref: PluginReference, logs: seq<Log>)
    | Skipped(logs: seq<Log>)
    | Stopped(error: Raised, logs: seq<Log>)

  function Link(env: Env, ref: PluginReference, logs: seq<Log>): (s: Step)
    ensures s.Kept? || s.Stopped?
  {
    var l := LinkReference(env, ref);
    match l.ref
    case Success(linked) => Kept(linked, logs + l.logs)
    case Failure(e) => Stopped(e, logs + l.logs)
  }

  /** One iteration of the loop. A declaration is kept exactly when it
      stands for a plugin (and linking does not raise); it raises when it has
      no package name, when a git dependency's manifest cannot be obtained,
      or when the catalog search returns a page without data. */
  function ResolveDependency(env: Env, d: string): (s: Step)
    ensures s.Kept? ==> Justifies(env, d, s.ref)
    ensures s.Kept? ==>
      LinkReference(env, s.ref.(plugin := None)).ref == Success(s.ref)
    ensures s.Skipped? ==> forall r :: !Justifies(env, d, r)
    ensures PackageName(d).None? <==> s == Stopped(NoPackageName(d), [])
    // skipped exactly when the manifest or PyPI was read and lists no `nomad-lab`
    ensures s.Skipped? <==>
      && PackageName(d).Some?
      && match GitReference(d)
         case Some(g) =>
           var resp := env.github(ContentsRequest(env.token, g.location, NonEmpty(g.subdirectory)));
           IsOk(resp.status) && resp.content != "" && resp.decoded.Some?
           && !MentionsNomad(ProjectOf(resp.decoded.value).dependencies)
         case None => !PypiMentionsNomad(env, PackageName(d).value)
    // a git manifest that cannot be fetched makes `.get` on `None` raise
    ensures PackageName(d).Some? && GitReference(d).Some? ==>
      var g := GitReference(d).value;
      var resp := env.github(ContentsRequest(env.token, g.location, NonEmpty(g.subdirectory)));
      !IsOk(resp.status) || resp.content == "" ==>
        s == Stopped(GitManifestMissing(g.location), GetToml(env, g.location, NonEmpty(g.subdirectory)).value.logs)
    // a declaration standing for a plugin is linked: kept with the linked
    // reference, or stopped with the search's exception
    ensures forall r :: Justifies(env, d, r) && r.plugin.None? ==>
      match LinkReference(env, r).ref
      case Success(linked) => s.Kept? && s.ref == linked
      case Failure(e) => s.Stopped? && s.error == e
    // an ok reply whose content does not decode makes `get_toml` raise
    ensures PackageName(d).Some? && GitReference(d).Some? ==>
      var g := GitReference(d).value;
      var resp := env.github(ContentsRequest(env.token, g.location, NonEmpty(g.subdirectory)));
      IsOk(resp.status) && resp.content != "" && resp.decoded.None? ==>
        s == Stopped(ManifestUnparsable(g.location), [])
    ensures s.Stopped? ==>
      || PackageName(d).None?
      || s.error.EmptySearchPage?
      || (GitReference(d).Some? && forall r :: !Justifies(env, d, r))
  {
    match PackageName(d)
    case None => Stopped(NoPackageName(d), [])
    case Some(name) =>
      match GitReference(d)
      case Some(g) =>
        var dir := NonEmpty(g.subdirectory);
        (match GetToml(env, g.location, dir)
         case Failure(e) => Stopped(e, [])
         case Success(f) =>
           if f.table.None? then Stopped(GitManifestMissing(g.location), f.logs)
           else if !MentionsNomad(ProjectOf(f.table.value).dependencies) then Skipped(f.logs)
           else Link(env, PluginReference(name, g.location, dir, None), f.logs))
      case None =>
        var resp := env.pypi(PypiJsonUrl(name));
        if !IsOk(resp.status) || resp.requiresDist.None? || !MentionsNomad(resp.requiresDist.value) then
          Skipped([])
        else Link(env, PluginReference(name, PypiProjectUrl(name), None, None), [])
  }

  /** The references found so far, the messages, and the exception that ended
      the loop early, if any. */
  datatype Found = Found(refs: seq<PluginReference>, logs: seq<Log>, raised: Option<Raised>)

  /** One step followed by the rest of the loop. */
  function Then(s: Step, rest: Found): Found {
    match s
    case Stopped(e, logs) => Found([], logs, Some(e))
    case Skipped(logs) => Found(rest.refs, logs + rest.logs, rest.raised)
    case Kept(ref, logs) => Found([ref] + rest.refs, logs + rest.logs, rest.raised)
  }

  /** Running the loop body's outcomes in order: each kept step appends its
      reference, the first stopped step ends the loop. */
  function Run(steps: seq<Step>): (r: Found)
    ensures |r.refs| <= |steps|
    ensures r.raised.None? <==> forall i :: 0 <= i < |steps| ==> !steps[i].Stopped?
    decreases |steps|
  {
    if steps == [] then Found([], [], None) else Then(steps[0], Run(steps[1..]))
  }

  /** What the loop body does with each declaration. The body has no side
      effects, so computing every step up front and then running them agrees
      with the loop stopping at the first exception. */
  function Steps(env: Env, decls: seq<string>): (ss: seq<Step>)
    ensures |ss| == |decls|
    ensures forall i :: 0 <= i < |decls| ==> ss[i] == ResolveDependency(env, decls[i])
  {
    seq(|decls|, i requires 0 <= i < |decls| => ResolveDependency(env, decls[i]))
  }

  /** The loop over `project.dependencies`, starting from an empty list:
      each kept declaration appends its reference; an exception ends the
      loop with the references appended before it. */
  function FindDependencies(env: Env, decls: seq<string>): (r: Found)
    ensures |r.refs| <= |decls|
    ensures r.raised.None? <==> forall i :: 0 <= i < |decls| ==> !ResolveDependency(env, decls[i]).Stopped?
  {
    Run(Steps(env, decls))
  }

  /** Running `a + b` is running `a`, then, unless it stopped, `b`. */
  lemma {:induction false} RunAppend(a: seq<Step>, b: seq<Step>)
    ensures var ra := Run(a);
      var rb := Run(b);
      Run(a + b) == if ra.raised.Some? then ra else Found(ra.refs + rb.refs, ra.logs + rb.logs, rb.raised)
    decreases |a|
  {
    if a == [] {
      assert a + b == b;
    } else {
      assert (a + b)[0] == a[0];
      assert (a + b)[1..] == a[1..] + b;
      RunAppend(a[1..], b);
      var r1 := Run(a[1..]);
      var rb := Run(b);
      if a[0].Kept? && r1.raised.None? {
        assert [a[0].ref] + r1.refs + rb.refs == [a[0].ref] + (r1.refs + rb.refs);
        assert a[0].logs + r1.logs + rb.logs == a[0].logs + (r1.logs + rb.logs);
      } else if a[0].Skipped? && r1.raised.None? {
        assert a[0].logs + r1.logs + rb.logs == a[0].logs + (r1.logs + rb.logs);
      }
    }
  }

  /** The loop is sequential: the declarations of `a + b` give the results
      of `a` followed, unless `a` raised, by those of `b`. So references come
      in declaration order. */
  lemma FindDependenciesAppend(env: Env, a: seq<string>, b: seq<string>)
    ensures var ra := FindDependencies(env, a);
      var rb := FindDependencies(env, b);
      FindDependencies(env, a + b)
        == if ra.raised.Some? then ra else Found(ra.refs + rb.refs, ra.logs + rb.logs, rb.raised)
  {
    StepsAppend(env, a, b);
    RunAppend(Steps(env, a), Steps(env, b));
  }

  /** The steps of `a + b` are those of `a`, then those of `b`. */
  lemma StepsAppend(env: Env, a: seq<string>, b: seq<string>)
    ensures Steps(env, a + b) == Steps(env, a) + Steps(env, b)
  {
    var sa := Steps(env, a);
    var sb := Steps(env, b);
    forall i | 0 <= i < |a| + |b| ensures Steps(env, a + b)[i] == (sa + sb)[i] {
      if i < |a| {
        assert (a + b)[i] == a[i];
      } else {
        assert (a + b)[i] == b[i - |a|];
      }
    }
  }

  /** `x` is the reference of one of the kept steps. */
  predicate FromKept(steps: seq<Step>, x: PluginReference) {
    exists i :: 0 <= i < |steps| && steps[i].Kept? && steps[i].ref == x
  }

  /** Every reference the run produces is the reference of a kept step. */
  lemma {:induction false} RunRefsAreKept(steps: seq<Step>)
    ensures forall k :: 0 <= k < |Run(steps).refs| ==> FromKept(steps, Run(steps).refs[k])
    decreases |steps|
  {
    if steps != [] {
      var r := Run(steps);
      var rest := Run(steps[1..]);
      RunRefsAreKept(steps[1..]);
      assert forall j :: 0 <= j < |rest.refs| ==> FromKept(steps[1..], rest.refs[j]);
      forall k | 0 <= k < |r.refs| ensures FromKept(steps, r.refs[k]) {
        if steps[0].Kept? && k == 0 {
          assert steps[0].ref == r.refs[0];
        } else {
          var k' := if steps[0].Kept? then k - 1 else k;
          assert 0 <= k' < |rest.refs|;
          assert r.refs[k] == rest.refs[k'];
          assert FromKept(steps[1..], rest.refs[k']);
          var i :| 0 <= i < |steps[1..]| && steps[1..][i].Kept? && steps[1..][i].ref == rest.refs[k'];
          assert steps[i + 1] == steps[1..][i];
        }
      }
    }
  }

  /** Every reference found stands for one of the declarations. */
  lemma FoundAreJustified(env: Env, decls: seq<string>)
    ensures forall k :: 0 <= k < |FindDependencies(env, decls).refs| ==>
      exists i :: 0 <= i < |decls| && Justifies(env, decls[i], FindDependencies(env, decls).refs[k])
  {
    var ss := Steps(env, decls);
    var r := FindDependencies(env, decls);
    RunRefsAreKept(ss);
    forall k | 0 <= k < |r.refs|
      ensures exists i :: 0 <= i < |decls| && Justifies(env, decls[i], r.refs[k])
    {
      assert FromKept(ss, r.refs[k]);
      var i :| 0 <= i < |ss| && ss[i].Kept? && ss[i].ref == r.refs[k];
      assert Justifies(env, decls[i], ss[i].ref);
    }
  }

  /** A single declaration contributes at most one reference, and its
      exception, if any, is the loop's. */
  lemma OneDeclaration(env: Env, d: string)
    ensures var s := ResolveDependency(env, d);
      && FindDependencies(env, [d]).refs == (if s.Kept? then [s.ref] else [])
      && FindDependencies(env, [d]).raised == (if s.Stopped? then Some(s.error) else None)
  {
    var ss := Steps(env, [d]);
    assert ss[1..] == [];
    assert Run(ss[1..]) == Found([], [], None);
    assert FindDependencies(env, [d]) == Then(ss[0], Found([], [], None));
  }

  /** The first stopped step ends the run: its exception comes back with the
      references of the steps before it. */
  lemma RunFirstStop(steps: seq<Step>, i: nat)
    requires i < |steps| && steps[i].Stopped?
    requires forall j :: 0 <= j < i ==> !steps[j].Stopped?
    ensures Run(steps).raised == Some(steps[i].error)
    ensures Run(steps).refs == Run(steps[..i]).refs
  {
    var a := steps[..i];
    var b := steps[i..];
    assert steps == a + b;
    assert forall j :: 0 <= j < |a| ==> a[j] == steps[j];
    assert b[0] == steps[i];
    RunAppend(a, b);
  }

  /** The first declaration that raises ends the loop: its exception comes
      back with the references of the declarations before it. */
  lemma FirstStopEndsLoop(env: Env, decls: seq<string>, i: nat)
    requires i < |decls| && ResolveDependency(env, decls[i]).Stopped?
    requires forall j :: 0 <= j < i ==> !ResolveDependency(env, decls[j]).Stopped?
    ensures FindDependencies(env, decls).raised == Some(ResolveDependency(env, decls[i]).error)
    ensures FindDependencies(env, decls).refs == FindDependencies(env, decls[..i]).refs
  {
    var ss := Steps(env, decls);
    assert Steps(env, decls[..i]) == ss[..i];
    RunFirstStop(ss, i);
  }

  /** No deduplication: a plugin declared twice is referenced twice. */
  lemma NoDeduplication(env: Env, d: string)
    requires ResolveDependency(env, d).Kept?
    ensures var ref := ResolveDependency(env, d).ref;
      FindDependencies(env, [d, d]).refs == [ref, ref]
  {
    var s := ResolveDependency(env, d);
    OneDeclaration(env, d);
    var ss := Steps(env, [d]);
    assert ss[1..] == [];
    assert Run(ss[1..]) == Found([], [], None);
    assert FindDependencies(env, [d]) == Found([s.ref], s.logs, None);
    FindDependenciesAppend(env, [d], [d]);
    assert [d] + [d] == [d, d];
  }
}

=== FILE: diagnostics.dfy ===
/** What the pipeline reports: warnings it logs (or prints when no logger is
    given; the model does not tell the two apart) and the exceptions it lets
    escape. */
module Diagnostics {

  datatype Log =
    /** `get_toml` saw status 403. */
    | RateLimitWarning
    /** `get_toml` saw another failing status; `message` is the upstream
        `message` field or `No message`. */
    | FetchFailure(url: string, message: string)
    /** `Plugin.normalize` could not match the repository URL. */
    | InvalidRepositoryWarning(url: string)
    /** `on_gitlab_oasis` saw a failing status; `text` is the response body. */
    | OasisFetchFailure(url: string, text: string)
    /** The catalog search found `total > 1` records for `location`. */
    | AmbiguousMatch(total: int, location: string)
    /** The catalog search found nothing for `location`. */
    | NoPluginFound(location: string)

  datatype Raised =
    /** Base64 decoding or `toml.loads` failed on fetched content. */
    | ManifestUnparsable(url: string)
    /** `name_pattern.match(d)` was `None`, so `.group` raised. */
    | NoPackageName(declaration: string)
    /** `get_toml` returned `None` for a git dependency, so `.get` raised. */
    | GitManifestMissing(location: string)
    /** The repository URL did not match, so `match.group(1)` raised. */
    | InvalidRepository(url: string)
    /** A catalog search reported hits but returned no data row. */
    | EmptySearchPage(location: string)
    /** A distro manifest lacks `project.optional-dependencies.plugins`. */
    | MissingPluginsGroup(url: string)
}

=== FILE: github.dfy ===
/** `get_toml`: fetch a repository's `pyproject.toml` through the GitHub
    contents API. The request is built here; the reply comes from the
    environment. */
module GitHub {
  import opened Wrappers
  import opened Text
  import opened Manifests
  import opened Diagnostics
  import opened Network

  const GithubPrefix := "https://github.com"
  const ApiPrefix := "https://api.github.com/repos"
  const ManifestFile := "pyproject.toml"
  const NoMessage := "No message"

  /** The contents-API URL: every `https://github.com` in `url` rewritten to
      the API prefix, then `/contents/`, then `subdirectory/` when given, then
      the manifest file name. */
  function ContentsUrl(url: string, subdirectory: Option<string>): (r: string)
    ensures !Contains(url, GithubPrefix) ==>
      r == url + "/contents/" + (if subdirectory.Some? then subdirectory.value + "/" else "") + ManifestFile
  {
    var subdir := if subdirectory.Some? then subdirectory.value + "/" else "";
    ReplaceAll(url, GithubPrefix, ApiPrefix) + "/contents/" + subdir + ManifestFile
  }

  /** For a GitHub URL `https://github.com<path>` (for instance `/owner/repo`)
      the request goes to the API's contents endpoint of the same path. */
  lemma ContentsUrlOfRepository(path: string, subdirectory: Option<string>)
    requires ':' !in path
    ensures ContentsUrl(GithubPrefix + path, subdirectory)
         == ApiPrefix + path + "/contents/"
            + (if subdirectory.Some? then subdirectory.value + "/" else "") + ManifestFile
  {
    NoOccurrenceWithout(GithubPrefix, path, ':');
    ReplaceAllFront(GithubPrefix, path, ApiPrefix);
  }

  /** A URL on another host is requested as given. */
  lemma ContentsUrlOtherHost(url: string)
    requires !Contains(url, GithubPrefix)
    ensures ContentsUrl(url, None) == url + "/contents/" + ManifestFile
  {
  }

  /** The headers: an `Authorization: token <t>` header exactly when a token
      is configured. */
  function AuthHeaders(token: string): (hs: seq<Header>)
    ensures hs == [] <==> token == ""
    ensures token != "" ==> hs == [Header("Authorization", "token " + token)]
  {
    if token != "" then [Header("Authorization", "token " + token)] else []
  }

  function ContentsRequest(token: string, url: string, subdirectory: Option<string>): Request {
    Request(ContentsUrl(url, subdirectory), AuthHeaders(token))
  }

  /** The four ways a reply is handled. */
  datatype Outcome = Parsed | RateLimited | Failed | NoContent

  function Classify(resp: ContentResponse): Outcome {
    if IsOk(resp.status) then (if resp.content != "" then Parsed else NoContent)
    else if resp.status == Forbidden then RateLimited
    else Failed
  }

  /** What `get_toml` returns (`table`, `None` for Python's `None`) and the
      messages it emits on the way. */
  datatype Fetched = Fetched(table: Option<Manifest>, logs: seq<Log>)

  /** `get_toml(url, subdirectory)` against the environment's GitHub. A table
      comes back only from an ok reply with non-empty content; a message is
      emitted exactly when the status is not ok; status 403 gives the
      rate-limit message and no other; any other failing status gives one
      failure message carrying the upstream message or `No message`. It fails
      only when decoding or parsing non-empty content raises. */
  function GetToml(env: Env, url: string, subdirectory: Option<string>): (r: Result<Fetched, Raised>)
    ensures var resp := env.github(ContentsRequest(env.token, url, subdirectory));
      && (r.Success? && r.value.table.Some? <==> Classify(resp) == Parsed && resp.decoded.Some?)
      && (r.Success? && r.value.table.Some? ==> r.value.table == resp.decoded && r.value.logs == [])
      && (r.Failure? <==> Classify(resp) == Parsed && resp.decoded.None?)
    ensures var resp := env.github(ContentsRequest(env.token, url, subdirectory));
      && (r.Success? && r.value.table.Some? ==> IsOk(resp.status) && resp.content != "")
      && (r.Success? ==> (r.value.logs != [] <==> !IsOk(resp.status)))
      && (resp.status == 403 ==> r == Success(Fetched(None, [RateLimitWarning])))
      && (!IsOk(resp.status) && resp.status != 403 ==>
            r == Success(Fetched(None, [FetchFailure(url, resp.message.GetOr(NoMessage))])))
      && (IsOk(resp.status) && resp.content == "" ==> r == Success(Fetched(None, [])))
  {
    var resp := env.github(ContentsRequest(env.token, url, subdirectory));
    match Classify(resp)
    case Parsed =>
      if resp.decoded.Some? then Success(Fetched(resp.decoded, []))
      else Failure(ManifestUnparsable(url))
    case NoContent => Success(Fetched(None, []))
    case RateLimited => Success(Fetched(None, [RateLimitWarning]))
    case Failed => Success(Fetched(None, [FetchFailure(url, resp.message.GetOr(NoMessage))]))
  }
}

=== FILE: manifests.dfy ===
/** The parsed `pyproject.toml` tables the pipeline reads. Decoding and TOML
    parsing happen outside the model; these records are what they produce.
    A list key that is absent is the empty list, since every read of one in
    the source goes through `.get(key, [])`. */
module Manifests {
  import opened Wrappers

  /** One entry of `project.authors` / `project.maintainers`, copied into a
      `PyprojectAuthor` section unchanged. */
  datatype PyprojectAuthor = PyprojectAuthor(name: Option<string>, email: Option<string>)

  /** The `[project]` table. `pluginExtras` is
      `optional-dependencies.plugins`, `None` when any key on that path is
      missing. */
  datatype Project = Project(
    name: Option<string>,
    description: Option<string>,
    authors: seq<PyprojectAuthor>,
    maintainers: seq<PyprojectAuthor>,
    dependencies: seq<string>,
    pluginExtras: Option<seq<string>>)

  datatype Manifest = Manifest(project: Option<Project>)

  /** The table `{}` that `.get('project', {})` substitutes. */
  const EmptyProject := Project(None, None, [], [], [], None)

  /** `manifest.get('project', {})`. */
  function ProjectOf(m: Manifest): Project {
    m.project.GetOr(EmptyProject)
  }
}

=== FILE: network.dfy ===
/** Everything the pipeline asks of the outside world, passed in as one
    value: the HTTP endpoints as functions from request to response, the
    catalog search, the configured token and the clock. */
module Network {
  import opened Wrappers
  import opened Manifests

  /** `requests.Response.ok`: false exactly for the 4xx and 5xx statuses
      that `raise_for_status` rejects. */
  predicate IsOk(status: int) {
    !(400 <= status < 600)
  }

  /** `requests.codes.forbidden`. */
  const Forbidden := 403

  datatype Header = Header(key: string, value: string)

  datatype Request = Request(url: string, headers: seq<Header>)

  /** A GitHub contents-API reply. `content` is the base64 `content` field
      (`""` when absent or empty); `decoded` is what decoding it and
      `toml.loads` produce, `None` when either raises; `message` is the
      JSON `message` field. */
  datatype ContentResponse = ContentResponse(
    status: int,
    content: string,
    decoded: Option<Manifest>,
    message: Option<string>)

  /** A PyPI JSON reply: `info.requires_dist`, `None` when absent or null. */
  datatype PypiResponse = PypiResponse(status: int, requiresDist: Option<seq<string>>)

  /** A raw file fetch: the body and what `toml.loads` makes of it. */
  datatype RawResponse = RawResponse(status: int, text: string, parsed: Option<Manifest>)

  /** One row of catalog search data. */
  datatype Hit = Hit(uploadId: string, entryId: string)

  /** A catalog search page of size one: the total match count and the rows. */
  datatype SearchResult = SearchResult(total: int, data: seq<Hit>)

  datatype Env = Env(
    /** `configuration.github_api_token`, `""` when unset. */
    token: string,
    github: Request -> ContentResponse,
    /** PyPI JSON API, keyed by request URL. */
    pypi: string -> PypiResponse,
    /** Raw GitLab file fetches, keyed by URL. */
    gitlab: string -> RawResponse,
    /** Whether the archive's context is a `ServerContext`. */
    serverContext: bool,
    /** Catalog search on `results.eln.lab_ids`, keyed by the location. */
    search: string -> SearchResult,
    /** `datetime.now()`. */
    now: int)
}

=== FILE: oasis.dfy ===
/** `on_gitlab_oasis`: is a package listed among the `plugins` extras of a
    NOMAD distribution manifest? */
module Oasis {
  import opened Wrappers
  import opened Manifests
  import opened Diagnostics
  import opened Network
  import opened Requirements

  const CentralManifestUrl :=
    "https://gitlab.mpcdf.mpg.de/nomad-lab/nomad-distro/-/raw/main/pyproject.toml"
  const ExampleOasisManifestUrl :=
    "https://gitlab.mpcdf.mpg.de/nomad-lab/nomad-distro/-/raw/test-oasis/pyproject.toml"

  /** The package names of the entries, in order; the first entry without
      one makes the list comprehension raise. */
  function PackageNames(entries: seq<string>): (r: Result<seq<string>, Raised>)
    ensures r.Success? <==> forall i :: 0 <= i < |entries| ==> PackageName(entries[i]).Some?
    ensures r.Success? ==> |r.value| == |entries|
    ensures r.Success? ==> forall i :: 0 <= i < |entries| ==> PackageName(entries[i]) == Some(r.value[i])
    ensures r.Failure? ==> r.error.NoPackageName? && r.error.declaration in entries
    decreases |entries|
  {
    if entries == [] then Success([])
    else match PackageName(entries[0])
      case None => Failure(NoPackageName(entries[0]))
      case Some(n) =>
        match PackageNames(entries[1..])
        case Failure(e) => Failure(e)
        case Success(ns) => Success([n] + ns)
  }

  /** The answer, or what was raised, and the warnings. */
  datatype Presence = Presence(listed: Result<bool, Raised>, logs: seq<Log>)

  /** A failing fetch is only reported: the body is parsed regardless. An
      unparsable body, a missing `project.optional-dependencies.plugins`, or
      an entry without a package name raises. Otherwise the answer is whether
      `pluginName` is present and equals the package name of some entry. */
  function OnGitlabOasis(env: Env, pluginName: Option<string>, url: string): (r: Presence)
    ensures var resp := env.gitlab(url);
      r.logs == (if IsOk(resp.status) then [] else [OasisFetchFailure(url, resp.text)])
    ensures var resp := env.gitlab(url);
      r.listed.Success? ==>
        && resp.parsed.Some?
        && resp.parsed.value.project.Some?
        && resp.parsed.value.project.value.pluginExtras.Some?
        && var entries := resp.parsed.value.project.value.pluginExtras.value;
           (r.listed.value <==>
              pluginName.Some? && exists i :: 0 <= i < |entries| && PackageName(entries[i]) == Some(pluginName.value))
    // which failure goes with which malformed body
    ensures var resp := env.gitlab(url);
      resp.parsed.None? ==> r.listed == Failure(ManifestUnparsable(url))
    ensures var resp := env.gitlab(url);
      resp.parsed.Some? && (resp.parsed.value.project.None? || resp.parsed.value.project.value.pluginExtras.None?) ==>
        r.listed == Failure(MissingPluginsGroup(url))
    ensures var resp := env.gitlab(url);
      resp.parsed.Some? && resp.parsed.value.project.Some? && resp.parsed.value.project.value.pluginExtras.Some? ==>
        var entries := resp.parsed.value.project.value.pluginExtras.value;
        && (r.listed.Success? <==> forall i :: 0 <= i < |entries| ==> PackageName(entries[i]).Some?)
        && (r.listed.Failure? ==> r.listed.error.NoPackageName? && r.listed.error.declaration in entries)
  {
    var resp := env.gitlab(url);
    var logs := if IsOk(resp.status) then [] else [OasisFetchFailure(url, resp.text)];
    if resp.parsed.None? then Presence(Failure(ManifestUnparsable(url)), logs)
    else
      var project := resp.parsed.value.project;
      if project.None? || project.value.pluginExtras.None? then
        Presence(Failure(MissingPluginsGroup(url)), logs)
      else
        match PackageNames(project.value.pluginExtras.value)
        case Failure(e) => Presence(Failure(e), logs)
        case Success(names) => Presence(Success(pluginName.Some? && pluginName.value in names), logs)
  }

  /** The status of the fetch only decides the warning: two replies with the
      same body give the same answer. */
  lemma StatusOnlyWarns(env: Env, env': Env, pluginName: Option<string>, url: string)
    requires env.gitlab(url).text == env'.gitlab(url).text
    requires env.gitlab(url).parsed == env'.gitlab(url).parsed
    ensures OnGitlabOasis(env, pluginName, url).listed == OnGitlabOasis(env', pluginName, url).listed
  {
  }

  /** A manifest whose extras list `name` with a version constraint (any
      text starting with a stop character) reports the plugin as present,
      provided every entry has a package name. */
  lemma ListedWithConstraint(env: Env, name: string, constraint: string, url: string)
    requires |name| > 0 && forall i :: 0 <= i < |name| ==> !IsNameStop(name[i])
    requires constraint == [] || IsNameStop(constraint[0])
    requires env.gitlab(url).parsed.Some?
    requires env.gitlab(url).parsed.value.project.Some?
    requires env.gitlab(url).parsed.value.project.value.pluginExtras.Some?
    requires name + constraint in env.gitlab(url).parsed.value.project.value.pluginExtras.value
    requires forall e :: e in env.gitlab(url).parsed.value.project.value.pluginExtras.value ==> PackageName(e).Some?
    ensures OnGitlabOasis(env, Some(name), url).listed == Success(true)
  {
    var entries := env.gitlab(url).parsed.value.project.value.pluginExtras.value;
    var i :| 0 <= i < |entries| && entries[i] == name + constraint;
    PackageNameOf(name, constraint);
    assert PackageName(entries[i]) == Some(name);
  }
}

=== FILE: plugins.dfy ===
/** The `Plugin` record and `Plugin.normalize`, which fills it in from the
    repository's manifest, PyPI and the NOMAD distribution manifests. */
module Plugins {
  import opened Wrappers
  import opened Text
  import opened Manifests
  import opened Diagnostics
  import opened Network
  import opened GitHub
  import opened Catalog
  import opened Oasis
  import opened Dependencies

  /** The record; `created` is a timestamp, `onPypi` defaults to false and
      the two distribution flags start unknown. */
  datatype Plugin = Plugin(
    repository: Option<string>,
    tomlDirectory: Option<string>,
    created: Option<int>,
    name: Option<string>,
    description: Option<string>,
    owner: Option<string>,
    onPypi: bool,
    onCentral: Option<bool>,
    onExampleOasis: Option<bool>,
    authors: seq<PyprojectAuthor>,
    maintainers: seq<PyprojectAuthor>,
    pluginDependencies: seq<PluginReference>)

  /** The literal part of `https://github.com/([^/]+)/([^/]+)` before the
      groups. Its `.` is not escaped, so at index 14 any character but a
      newline matches. */
  const RepositoryPrefix := "https://github.com/"
  const UnescapedDot := 14

  predicate PrefixCharMatches(i: nat, c: char)
    requires i < |RepositoryPrefix|
  {
    if i == UnescapedDot then c != '\n' else c == RepositoryPrefix[i]
  }

  predicate StartsLikeGithub(url: string) {
    |url| >= |RepositoryPrefix| &&
    forall i :: 0 <= i < |RepositoryPrefix| ==> PrefixCharMatches(i, url[i])
  }

  function NotSlash(c: char): bool { c != '/' }

  /** Group 1 of `re.match(r'https://github.com/([^/]+)/([^/]+)', url)`: the
      owner is a non-empty run of non-`/` characters after the prefix that is
      followed by `/` and one more non-`/` character. */
  function RepositoryOwner(url: string): (r: Option<string>)
    ensures r.Some? ==> StartsLikeGithub(url) && |r.value| > 0 && '/' !in r.value
    ensures r.Some? ==>
      var n := |RepositoryPrefix| + |r.value|;
      n + 1 < |url| && url[|RepositoryPrefix|..n] == r.value && url[n] == '/' && url[n + 1] != '/'
  {
    if !StartsLikeGithub(url) then None
    else
      var rest := url[|RepositoryPrefix|..];
      var n := Span(rest, NotSlash);
      if n == 0 || n + 1 >= |rest| || rest[n + 1] == '/' then None
      else
        assert url[|RepositoryPrefix|..|RepositoryPrefix| + n] == rest[..n];
        Some(rest[..n])
  }

  /** The owner of `https://github.com/<owner>/<repo...>` is `owner`. */
  lemma RepositoryOwnerOf(owner: string, repo: string)
    requires |owner| > 0 && '/' !in owner
    requires |repo| > 0 && repo[0] != '/'
    ensures RepositoryOwner(RepositoryPrefix + owner + "/" + repo) == Some(owner)
  {
    var url := RepositoryPrefix + owner + "/" + repo;
    var rest := owner + "/" + repo;
    assert url == RepositoryPrefix + rest;
    assert url[|RepositoryPrefix|..] == rest;
    assert forall i :: 0 <= i < |RepositoryPrefix| ==> url[i] == RepositoryPrefix[i];
    assert rest == owner + ("/" + repo);
    SpanOf(owner, "/" + repo, NotSlash);
    assert rest[..|owner|] == owner;
  }

  /** Python truthiness of an optional string. */
  predicate Truthy(s: Option<string>) {
    s.Some? && s.value != ""
  }

  /** The record after `normalize`, the archive's `results.eln.lab_ids`, the
      messages, and the exception that escaped, if any. Fields assigned
      before an exception keep their new values. */
  datatype Normalized = Normalized(
    plugin: Plugin,
    labIds: seq<Option<string>>,
    logs: seq<Log>,
    raised: Option<Raised>)

  /** A distribution flag: kept when known, otherwise looked up. */
  datatype Flag = Flag(flag: Option<bool>, logs: seq<Log>, raised: Option<Raised>)

  function FillFlag(env: Env, current: Option<bool>, name: Option<string>, url: string): (r: Flag)
    ensures current.Some? ==> r == Flag(current, [], None)
    ensures r.raised.None? <==> r.flag.Some?
    // an unknown flag takes the answer of `on_gitlab_oasis`, or stays unknown with its exception
    ensures current.None? ==>
      var o := OnGitlabOasis(env, name, url);
      && r.logs == o.logs
      && (o.listed.Success? ==> r.flag == Some(o.listed.value) && r.raised == None)
      && (o.listed.Failure? ==> r.flag == None && r.raised == Some(o.listed.error))
  {
    if current.Some? then Flag(current, [], None)
    else
      var o := OnGitlabOasis(env, name, url);
      match o.listed
      case Success(b) => Flag(Some(b), o.logs, None)
      case Failure(e) => Flag(None, o.logs, Some(e))
  }

  /** After the last two steps, for a record named `name` whose flags were
      `central` and `example`: `on_central` is filled from the main
      distribution manifest, then, unless that lookup raised,
      `on_example_oasis` from the test-oasis manifest. */
  predicate DistributionsChecked(env: Env, name: Option<string>, central: Option<bool>, example: Option<bool>, n: Normalized) {
    var c := FillFlag(env, central, name, CentralManifestUrl);
    && n.plugin.onCentral == c.flag
    && if c.raised.Some? then n.plugin.onExampleOasis == example && n.raised == c.raised
       else
         var e := FillFlag(env, example, name, ExampleOasisManifestUrl);
         n.plugin.onExampleOasis == e.flag && n.raised == e.raised
  }

  /** The last two steps: `on_central`, then `on_example_oasis`. */
  function CheckDistributions(env: Env, p: Plugin, labIds: seq<Option<string>>, logs: seq<Log>): (n: Normalized)
    ensures n.plugin.(onCentral := p.onCentral, onExampleOasis := p.onExampleOasis) == p
    ensures n.labIds == labIds
    ensures p.onCentral.Some? ==> n.plugin.onCentral == p.onCentral
    ensures p.onExampleOasis.Some? ==> n.plugin.onExampleOasis == p.onExampleOasis
    ensures DistributionsChecked(env, p.name, p.onCentral, p.onExampleOasis, n)
  {
    var central := FillFlag(env, p.onCentral, p.name, CentralManifestUrl);
    var p1 := p.(onCentral := central.flag);
    if central.raised.Some? then Normalized(p1, labIds, logs + central.logs, central.raised)
    else
      var example := FillFlag(env, p1.onExampleOasis, p1.name, ExampleOasisManifestUrl);
      Normalized(p1.(onExampleOasis := example.flag), labIds, logs + central.logs + example.logs, example.raised)
  }

  /** What the steps after the manifest was obtained make of `p` and
      `labIds`, given the manifest's project: the project fields are copied,
      `plugin_dependencies` is what `find_dependencies` finds, and an
      exception there ends the run. Otherwise a truthy name that PyPI knows
      sets `on_pypi` and adds the project page to the lab ids, and the
      distribution flags are checked. */
  predicate EnrichedFrom(env: Env, p: Plugin, project: Project, labIds: seq<Option<string>>, n: Normalized) {
    var found := FindDependencies(env, project.dependencies);
    var onPypi := Truthy(project.name) && IsOk(env.pypi(PypiJsonUrl(project.name.value)).status);
    && n.plugin.repository == p.repository && n.plugin.tomlDirectory == p.tomlDirectory
    && n.plugin.created == p.created && n.plugin.owner == p.owner
    && n.plugin.name == project.name && n.plugin.description == project.description
    && n.plugin.authors == project.authors && n.plugin.maintainers == project.maintainers
    && n.plugin.pluginDependencies == found.refs
    && if found.raised.Some? then
         && n.raised == found.raised && n.labIds == labIds
         && n.plugin.onPypi == p.onPypi
         && n.plugin.onCentral == p.onCentral && n.plugin.onExampleOasis == p.onExampleOasis
       else
         && n.plugin.onPypi == (p.onPypi || onPypi)
         && n.labIds == (if onPypi then labIds + [Some(PypiProjectUrl(project.name.value))] else labIds)
         && DistributionsChecked(env, project.name, p.onCentral, p.onExampleOasis, n)
  }

  /** Everything after the manifest was obtained: the project fields, the
      dependencies, the PyPI check and the distribution flags. */
  function Enrich(env: Env, p: Plugin, project: Project, labIds: seq<Option<string>>, logs: seq<Log>): (n: Normalized)
    ensures n.plugin.created == p.created && n.plugin.owner == p.owner
    ensures n.plugin.repository == p.repository && n.plugin.tomlDirectory == p.tomlDirectory
    ensures n.plugin.name == project.name && n.plugin.description == project.description
    ensures n.plugin.authors == project.authors && n.plugin.maintainers == project.maintainers
    ensures n.labIds == labIds || (
      && Truthy(n.plugin.name)
      && IsOk(env.pypi(PypiJsonUrl(n.plugin.name.value)).status)
      && n.labIds == labIds + [Some(PypiProjectUrl(n.plugin.name.value))]
      && n.plugin.onPypi)
    ensures p.onPypi ==> n.plugin.onPypi
    ensures p.onCentral.Some? ==> n.plugin.onCentral == p.onCentral
    ensures p.onExampleOasis.Some? ==> n.plugin.onExampleOasis == p.onExampleOasis
    ensures EnrichedFrom(env, p, project, labIds, n)
  {
    var p1 := p.(name := project.name, description := project.description,
                 authors := project.authors, maintainers := project.maintainers);
    var found := FindDependencies(env, project.dependencies);
    var p2 := p1.(pluginDependencies := found.refs);
    if found.raised.Some? then Normalized(p2, labIds, logs + found.logs, found.raised)
    else
      var onPypi := Truthy(p2.name) && IsOk(env.pypi(PypiJsonUrl(p2.name.value)).status);
      if onPypi then
        CheckDistributions(env, p2.(onPypi := true), labIds + [Some(PypiProjectUrl(p2.name.value))], logs + found.logs)
      else CheckDistributions(env, p2, labIds, logs + found.logs)
  }

  /** The repository's manifest can be read: the URL names an owner and
      GitHub answers ok with content that parses. */
  predicate ManifestObtained(env: Env, p: Plugin) {
    && p.repository.Some?
    && RepositoryOwner(p.repository.value).Some?
    && ManifestReadable(env, p.repository.value, p.tomlDirectory)
  }

  predicate ManifestReadable(env: Env, repo: string, dir: Option<string>) {
    var resp := env.github(ContentsRequest(env.token, repo, dir));
    IsOk(resp.status) && resp.content != "" && resp.decoded.Some?
  }

  /** The steps from `get_toml` on, for a record whose owner is set. A
      manifest that cannot be read leaves the record as it is. */
  function FromManifest(env: Env, p: Plugin, labIds: seq<Option<string>>): (n: Normalized)
    requires p.repository.Some?
    ensures n.plugin.created == p.created && n.plugin.owner == p.owner
    ensures n.plugin.repository == p.repository && n.plugin.tomlDirectory == p.tomlDirectory
    ensures n.labIds == labIds || (
      && Truthy(n.plugin.name)
      && IsOk(env.pypi(PypiJsonUrl(n.plugin.name.value)).status)
      && n.labIds == labIds + [Some(PypiProjectUrl(n.plugin.name.value))]
      && n.plugin.onPypi)
    ensures p.onPypi ==> n.plugin.onPypi
    ensures p.onCentral.Some? ==> n.plugin.onCentral == p.onCentral
    ensures p.onExampleOasis.Some? ==> n.plugin.onExampleOasis == p.onExampleOasis
    ensures ManifestReadable(env, p.repository.value, p.tomlDirectory) ==>
      EnrichedFrom(env, p, ProjectOf(env.github(ContentsRequest(env.token, p.repository.value, p.tomlDirectory)).decoded.value), labIds, n)
    ensures !ManifestReadable(env, p.repository.value, p.tomlDirectory) ==> n.plugin == p && n.labIds == labIds
    // an ok reply whose content does not decode raises; any other unreadable
    // reply raises nothing
    ensures var resp := env.github(ContentsRequest(env.token, p.repository.value, p.tomlDirectory));
      IsOk(resp.status) && resp.content != "" && resp.decoded.None? ==>
        n.raised == Some(ManifestUnparsable(p.repository.value)) && n.logs == []
    ensures var resp := env.github(ContentsRequest(env.token, p.repository.value, p.tomlDirectory));
      !IsOk(resp.status) || resp.content == "" ==> n.raised.None?
  {
    match GetToml(env, p.repository.value, p.tomlDirectory)
    case Failure(e) => Normalized(p, labIds, [], Some(e))
    case Success(f) =>
      if f.table.None? then Normalized(p, labIds, f.logs, None)
      else Enrich(env, p, ProjectOf(f.table.value), labIds, f.logs)
  }

  /** `Plugin.normalize`. */
  function Normalize(env: Env, p: Plugin): (n: Normalized)
    // `created` is set only when unset, even when there is no repository
    ensures n.plugin.created == (if p.created.Some? then p.created else Some(env.now))
    ensures n.plugin.repository == p.repository && n.plugin.tomlDirectory == p.tomlDirectory
    // lab ids: the repository, then the PyPI project page only after an ok lookup
    ensures 1 <= |n.labIds| <= 2 && n.labIds[0] == p.repository
    ensures |n.labIds| == 2 ==>
      && Truthy(n.plugin.name)
      && IsOk(env.pypi(PypiJsonUrl(n.plugin.name.value)).status)
      && n.labIds[1] == Some(PypiProjectUrl(n.plugin.name.value))
      && n.plugin.onPypi
    // the flags only move from unknown to known, and on_pypi only to true
    ensures p.onPypi ==> n.plugin.onPypi
    ensures p.onCentral.Some? ==> n.plugin.onCentral == p.onCentral
    ensures p.onExampleOasis.Some? ==> n.plugin.onExampleOasis == p.onExampleOasis
    // without a repository nothing else happens
    ensures p.repository.None? ==> n == Normalized(p.(created := n.plugin.created), [None], [], None)
    // an unmatched URL: one warning, then the exception, nothing enriched
    ensures p.repository.Some? && RepositoryOwner(p.repository.value).None? ==>
      && n.plugin == p.(created := n.plugin.created)
      && n.logs == [InvalidRepositoryWarning(p.repository.value)]
      && n.raised == Some(InvalidRepository(p.repository.value))
    ensures p.repository.Some? && RepositoryOwner(p.repository.value).Some? ==>
      n.plugin.owner == RepositoryOwner(p.repository.value)
    // once the manifest is read: the project fields, the dependencies, PyPI
    // and the flags as the later steps make them; otherwise all untouched
    ensures ManifestObtained(env, p) ==>
      EnrichedFrom(env, p.(created := n.plugin.created, owner := RepositoryOwner(p.repository.value)),
                   ProjectOf(env.github(ContentsRequest(env.token, p.repository.value, p.tomlDirectory)).decoded.value),
                   [p.repository], n)
    // without a manifest there is no PyPI lookup: the lab ids are the
    // repository alone, even when `on_pypi` was already true
    ensures !ManifestObtained(env, p) ==> n.labIds == [p.repository]
    ensures !ManifestObtained(env, p) ==>
      && n.plugin.name == p.name && n.plugin.description == p.description
      && n.plugin.authors == p.authors && n.plugin.maintainers == p.maintainers
      && n.plugin.pluginDependencies == p.pluginDependencies
      && n.plugin.onPypi == p.onPypi
      && n.plugin.onCentral == p.onCentral && n.plugin.onExampleOasis == p.onExampleOasis
    // with an owner, a manifest that does not decode raises; an unfetched one does not
    ensures p.repository.Some? && RepositoryOwner(p.repository.value).Some? ==>
      var resp := env.github(ContentsRequest(env.token, p.repository.value, p.tomlDirectory));
      && (IsOk(resp.status) && resp.content != "" && resp.decoded.None? ==>
            n.raised == Some(ManifestUnparsable(p.repository.value)))
      && (!IsOk(resp.status) || resp.content == "" ==> n.raised.None?)
  {
    var labIds := [p.repository];
    var p1 := if p.created.None? then p.(created := Some(env.now)) else p;
    if p1.repository.None? then Normalized(p1, labIds, [], None)
    else
      var repo := p1.repository.value;
      match RepositoryOwner(repo)
      case None => Normalized(p1, labIds, [InvalidRepositoryWarning(repo)], Some(InvalidRepository(repo)))
      case Some(owner) =>
        FromManifest(env, p1.(owner := Some(owner)), labIds)
  }

  /** Two runs agree on the record, the lab ids and the exception. Messages
      may differ: a flag looked up on the first run is not looked up again. */
  predicate SameResult(a: Normalized, b: Normalized) {
    a.plugin == b.plugin && a.labIds == b.labIds && a.raised == b.raised
  }

  lemma FillFlagIdempotent(env: Env, current: Option<bool>, name: Option<string>, url: string)
    ensures var once := FillFlag(env, current, name, url);
      var twice := FillFlag(env, once.flag, name, url);
      twice.flag == once.flag && twice.raised == once.raised
  {
  }

  lemma CheckDistributionsIdempotent(env: Env, p: Plugin, labIds: seq<Option<string>>, logs: seq<Log>, logs': seq<Log>)
    ensures var once := CheckDistributions(env, p, labIds, logs);
      SameResult(CheckDistributions(env, once.plugin, labIds, logs'), once)
  {
    var central := FillFlag(env, p.onCentral, p.name, CentralManifestUrl);
    FillFlagIdempotent(env, p.onCentral, p.name, CentralManifestUrl);
    if central.raised.None? {
      var p1 := p.(onCentral := central.flag);
      FillFlagIdempotent(env, p1.onExampleOasis, p1.name, ExampleOasisManifestUrl);
    }
  }

  lemma EnrichIdempotent(env: Env, p: Plugin, project: Project, labIds: seq<Option<string>>, logs: seq<Log>, logs': seq<Log>)
    ensures var once := Enrich(env, p, project, labIds, logs);
      SameResult(Enrich(env, once.plugin, project, labIds, logs'), once)
  {
    var found := FindDependencies(env, project.dependencies);
    var p2 := p.(name := project.name, description := project.description,
                 authors := project.authors, maintainers := project.maintainers,
                 pluginDependencies := found.refs);
    if found.raised.None? {
      var onPypi := Truthy(p2.name) && IsOk(env.pypi(PypiJsonUrl(p2.name.value)).status);
      var arg := if onPypi then p2.(onPypi := true) else p2;
      var ids := if onPypi then labIds + [Some(PypiProjectUrl(p2.name.value))] else labIds;
      assert Enrich(env, p, project, labIds, logs) == CheckDistributions(env, arg, ids, logs + found.logs);
      var q := CheckDistributions(env, arg, ids, logs + found.logs).plugin;
      CheckDistributionsIdempotent(env, arg, ids, logs + found.logs, logs' + found.logs);
      assert Enrich(env, q, project, labIds, logs') == CheckDistributions(env, q, ids, logs' + found.logs);
    }
  }

  /** Running `normalize` again against the same upstream data changes
      nothing: the same record (including `created`), the same lab ids and
      the same exception. */
  lemma NormalizeIdempotent(env: Env, p: Plugin)
    ensures SameResult(Normalize(env, Normalize(env, p).plugin), Normalize(env, p))
  {
    var once := Normalize(env, p);
    var q := once.plugin;
    if p.repository.Some? && RepositoryOwner(p.repository.value).Some? {
      var repo := p.repository.value;
      var owner := RepositoryOwner(repo).value;
      var p1 := if p.created.None? then p.(created := Some(env.now)) else p;
      var p2 := p1.(owner := Some(owner));
      var fetched := GetToml(env, repo, p.tomlDirectory);
      if fetched.Success? && fetched.value.table.Some? {
        var project := ProjectOf(fetched.value.table.value);
        assert once == Enrich(env, p2, project, [p.repository], fetched.value.logs);
        EnrichIdempotent(env, p2, project, [p.repository], fetched.value.logs, fetched.value.logs);
        assert q.(owner := Some(owner)) == q;
        assert Normalize(env, q) == Enrich(env, q, project, [p.repository], fetched.value.logs);
      }
    }
  }

  /** References left from an earlier run never survive a run that reads
      the manifest: the result does not depend on them. */
  lemma StaleDependenciesDropped(env: Env, p: Plugin, stale: seq<PluginReference>)
    requires ManifestObtained(env, p)
    ensures Normalize(env, p.(pluginDependencies := stale)) == Normalize(env, p)
  {
    var q := p.(pluginDependencies := stale);
    var repo := p.repository.value;
    var fetched := GetToml(env, repo, p.tomlDirectory);
    assert fetched.Success? && fetched.value.table.Some?;
    var pc := if p.created.None? then p.(created := Some(env.now)) else p;
    var qc := if q.created.None? then q.(created := Some(env.now)) else q;
    var pp := pc.(owner := RepositoryOwner(repo));
    var qp := qc.(owner := RepositoryOwner(repo));
    assert qp == pp.(pluginDependencies := stale);
    var project := ProjectOf(fetched.value.table.value);
    EnrichIgnoresDependencies(env, pp, stale, project, [p.repository], fetched.value.logs);
  }

  /** `Enrich` overwrites `plugin_dependencies` before anything reads it. */
  lemma EnrichIgnoresDependencies(env: Env, p: Plugin, stale: seq<PluginReference>, project: Project,
                                  labIds: seq<Option<string>>, logs: seq<Log>)
    ensures Enrich(env, p.(pluginDependencies := stale), project, labIds, logs) == Enrich(env, p, project, labIds, logs)
  {
    var found := FindDependencies(env, project.dependencies);
    var base := p.(name := project.name, description := project.description,
                   authors := project.authors, maintainers := project.maintainers);
    assert p.(pluginDependencies := stale).(name := project.name, description := project.description,
             authors := project.authors, maintainers := project.maintainers).(pluginDependencies := found.refs)
      == base.(pluginDependencies := found.refs);
  }

  /** A rate-limited manifest fetch sets no data field and emits only the
      rate-limit message. */
  lemma RateLimitedKeepsData(env: Env, p: Plugin)
    requires p.repository.Some? && RepositoryOwner(p.repository.value).Some?
    requires env.github(ContentsRequest(env.token, p.repository.value, p.tomlDirectory)).status == Forbidden
    ensures var n := Normalize(env, p);
      && n.plugin == p.(created := n.plugin.created, owner := RepositoryOwner(p.repository.value))
      && n.logs == [RateLimitWarning]
      && n.raised == None
      && n.labIds == [p.repository]
  {
  }

  /** The unescaped `.` lets a look-alike host through. */
  lemma LookAlikeHostAccepted()
    ensures RepositoryOwner("https://githubXcom/a/b") == Some("a")
  {
    var url := "https://githubXcom/a/b";
    assert StartsLikeGithub(url);
    assert url[|RepositoryPrefix|..] == "a/b";
    SpanOf("a", "/b", NotSlash);
    assert "a/b" == "a" + "/b";
  }
}

=== FILE: requirements.dfy ===
/** Parsing of one dependency declaration (a PEP 508 string from
    `project.dependencies`) with the two regular expressions of
    `find_dependencies`: the package-name prefix `^[^;>=<\s]+` and the git
    reference `@ git\+(.*?)\.git(?:@[^#]+)?(?:#subdirectory=(.*))?`. */
module Requirements {
  import opened Wrappers
  import opened Text

  /** The characters that end a package name. */
  predicate IsNameStop(c: char) {
    c == ';' || c == '>' || c == '=' || c == '<' || IsSpace(c)
  }

  function NameChar(c: char): bool { !IsNameStop(c) }

  /** `re.match(r'^[^;>=<\s]+', d)`: the longest non-empty prefix free of
      stop characters, `None` when there is no match (where the source's
      `.group` raises). */
  function PackageName(d: string): (r: Option<string>)
    ensures r.None? <==> d == [] || IsNameStop(d[0])
    ensures r.Some? ==> |r.value| > 0 && r.value <= d
    ensures r.Some? ==> forall i :: 0 <= i < |r.value| ==> !IsNameStop(r.value[i])
    ensures r.Some? && |r.value| < |d| ==> IsNameStop(d[|r.value|])
  {
    var n := Span(d, NameChar);
    if n == 0 then None else Some(d[..n])
  }

  /** A stop-free name followed by a stop character (or nothing) is what the
      name pattern extracts. */
  lemma PackageNameOf(name: string, rest: string)
    requires |name| > 0 && forall i :: 0 <= i < |name| ==> !IsNameStop(name[i])
    requires rest == [] || IsNameStop(rest[0])
    ensures PackageName(name + rest) == Some(name)
  {
    SpanOf(name, rest, NameChar);
    assert (name + rest)[..|name|] == name;
  }

  /** Only the listed characters end a name: `~` does not. */
  lemma PackageNameExamples()
    ensures PackageName("foo~=1") == Some("foo~")
    ensures PackageName("foo>=1.0") == Some("foo")
    ensures PackageName(">=1") == None
    ensures PackageName("") == None
  {
    PackageNameOf("foo~", "=1");
    assert "foo~" + "=1" == "foo~=1";
    PackageNameOf("foo", ">=1.0");
    assert "foo" + ">=1.0" == "foo>=1.0";
  }

  const GitMarker := "@ git+"
  const GitSuffix := ".git"
  const SubdirMarker := "#subdirectory="

  /** Group 1 (`location`) and group 2 (`subdirectory`, `None` when the
      optional group did not take part) of a git-reference match. */
  datatype GitRef = GitRef(location: string, subdirectory: Option<string>)

  function NotHash(c: char): bool { c != '#' }

  function NotNewline(c: char): bool { c != '\n' }

  /** Length of the optional `(?:@[^#]+)?` at the front of `t`: an `@` and a
      greedy, non-empty run of non-`#` characters, or nothing. */
  function RefLength(t: string): (n: nat)
    ensures n <= |t|
    ensures n > 0 ==> t[0] == '@' && (n == |t| || t[n] == '#')
  {
    if 1 < |t| && t[0] == '@' && t[1] != '#' then 1 + Span(t[1..], NotHash) else 0
  }

  /** Group 2 of the optional `(?:#subdirectory=(.*))?` at the front of `t`;
      `.` stops at a newline. */
  function SubdirOf(t: string): (r: Option<string>)
    ensures r.Some? ==> '\n' !in r.value
  {
    if |SubdirMarker| <= |t| && t[..|SubdirMarker|] == SubdirMarker then
      var rest := t[|SubdirMarker|..];
      Some(rest[..Span(rest, NotNewline)])
    else None
  }

  /** Where the pattern matched: group 1 and the text after its `.git`. */
  datatype GitMatch = GitMatch(location: string, after: string)

  /** The rest of the pattern, after `@ git+`, tried at `start`. The lazy
      `(.*?)` takes the shortest text before a `.git`, i.e. up to the first
      `.git`, and fails if that text holds a newline. */
  function GitTailAt(d: string, start: nat): Option<GitMatch>
    requires start <= |d|
  {
    match FindFrom(GitSuffix, d, start)
    case None => None
    case Some(j) =>
      var location := d[start..j];
      if '\n' in location then None
      else Some(GitMatch(location, d[j + |GitSuffix|..]))
  }

  /** A tail match ends at the first `.git`, with no newline and no other
      `.git` in the location. */
  lemma GitTailAtFacts(d: string, start: nat)
    requires start <= |d|
    ensures var r := GitTailAt(d, start);
      r.Some? ==>
        && start + |r.value.location| <= |d|
        && r.value.location == d[start..start + |r.value.location|]
        && OccursAt(GitSuffix, d, start + |r.value.location|)
        && r.value.after == d[start + |r.value.location| + |GitSuffix|..]
        && '\n' !in r.value.location
        && forall k :: !OccursAt(GitSuffix, r.value.location, k)
  {
    match FindFrom(GitSuffix, d, start)
    case None =>
    case Some(j) =>
      SuffixInLocation(d, start, j);
  }

  /** The location and, from the text after `.git`, the optional ref
      skipped and the subdirectory group. */
  function RefOf(m: GitMatch): GitRef {
    GitRef(m.location, SubdirOf(m.after[RefLength(m.after)..]))
  }

  /** A `.git` inside `d[start..j]` is a `.git` inside `d`. */
  lemma SuffixInLocation(d: string, start: nat, j: nat)
    requires start <= j <= |d|
    ensures forall k :: OccursAt(GitSuffix, d[start..j], k) ==> OccursAt(GitSuffix, d, start + k)
  {
    var location := d[start..j];
    forall k | OccursAt(GitSuffix, location, k) ensures OccursAt(GitSuffix, d, start + k) {
      SliceOfSlice(d, start, j, k, k + |GitSuffix|);
    }
  }

  /** The whole pattern matches starting at `k`: the marker, then a tail. */
  predicate GitMatchAt(d: string, k: nat) {
    OccursAt(GitMarker, d, k) && GitTailAt(d, k + |GitMarker|).Some?
  }

  /** `re.search` from index `i`: the leftmost start at which the whole
      pattern matches. Where the match is and what follows it is stated by
      GitSearchFromFacts. */
  function GitSearchFrom(d: string, i: nat): (r: Option<GitMatch>)
    ensures r.Some? ==> '\n' !in r.value.location
    ensures r.Some? ==> forall k :: !OccursAt(GitSuffix, r.value.location, k)
    decreases |d| - i
  {
    if i + |GitMarker| > |d| then None
    else if OccursAt(GitMarker, d, i) && GitTailAt(d, i + |GitMarker|).Some? then
      GitTailAtFacts(d, i + |GitMarker|);
      GitTailAt(d, i + |GitMarker|)
    else GitSearchFrom(d, i + 1)
  }

  /** `m` is the leftmost match from `i`, found at `k`: the marker, the
      location and `.git` occur together there, the rest of the declaration
      follows `.git`, and no start from `i` before `k` matches. */
  predicate LeftmostMatch(d: string, i: nat, k: nat, m: GitMatch) {
    && i <= k <= |d|
    && OccursAt(GitMarker, d, k)
    && OccursAt(GitMarker + m.location + GitSuffix, d, k)
    && m.after == d[k + |GitMarker| + |m.location| + |GitSuffix|..]
    && forall j :: i <= j < k ==> !GitMatchAt(d, j)
  }

  /** A search from `i` finds the leftmost start at or after `i` where the
      marker, the location and `.git` occur together, with the rest of the
      declaration after `.git`; it finds nothing only when no start at or
      after `i` matches. */
  lemma {:induction false} GitSearchFromFacts(d: string, i: nat)
    ensures GitSearchFrom(d, i).Some? ==> exists k :: LeftmostMatch(d, i, k, GitSearchFrom(d, i).value)
    ensures GitSearchFrom(d, i).None? ==> forall k :: i <= k ==> !GitMatchAt(d, k)
    decreases |d| - i
  {
    if i + |GitMarker| > |d| {
      assert GitSearchFrom(d, i).None?;
    } else if GitMatchAt(d, i) {
      GitSearchHere(d, i);
      assert LeftmostMatch(d, i, i, GitSearchFrom(d, i).value);
    } else {
      GitSearchPast(d, i);
      GitSearchFromFacts(d, i + 1);
      var r := GitSearchFrom(d, i);
      if r.Some? {
        var k :| LeftmostMatch(d, i + 1, k, r.value);
        LeftmostMatchStep(d, i, k, r.value);
      }
    }
  }

  /** Without a match at `i`, the leftmost match from `i + 1` is the leftmost
      from `i`. */
  lemma LeftmostMatchStep(d: string, i: nat, k: nat, m: GitMatch)
    requires !GitMatchAt(d, i) && LeftmostMatch(d, i + 1, k, m)
    ensures LeftmostMatch(d, i, k, m)
  {
  }

  /** A match at `i` is the one the search from `i` returns. */
  lemma GitSearchHere(d: string, i: nat)
    requires GitMatchAt(d, i)
    ensures var r := GitSearchFrom(d, i);
      && r.Some?
      && OccursAt(GitMarker + r.value.location + GitSuffix, d, i)
      && r.value.after == d[i + |GitMarker| + |r.value.location| + |GitSuffix|..]
  {
    var start := i + |GitMarker|;
    var r := GitTailAt(d, start);
    assert GitSearchFrom(d, i) == r;
    GitTailAtFacts(d, start);
    MarkerThenLocation(d, i, r.value.location);
  }

  /** No match at `i`: the search moves on to `i + 1`. */
  lemma GitSearchPast(d: string, i: nat)
    requires i + |GitMarker| <= |d| && !GitMatchAt(d, i)
    ensures GitSearchFrom(d, i) == GitSearchFrom(d, i + 1)
  {
  }

  /** The marker, then the location, then `.git`: one occurrence of the three
      together. */
  lemma MarkerThenLocation(d: string, i: nat, loc: string)
    requires OccursAt(GitMarker, d, i)
    requires i + |GitMarker| + |loc| <= |d|
    requires loc == d[i + |GitMarker|..i + |GitMarker| + |loc|]
    requires OccursAt(GitSuffix, d, i + |GitMarker| + |loc|)
    ensures OccursAt(GitMarker + loc + GitSuffix, d, i)
  {
    var e := i + |GitMarker| + |loc|;
    var whole := GitMarker + loc + GitSuffix;
    assert d[i..i + |whole|] == d[i..i + |GitMarker|] + d[i + |GitMarker|..e] + d[e..e + |GitSuffix|];
  }

  /** `re.search(git_pattern, d)`: `None` for a declaration that takes the
      PyPI branch. */
  function GitReference(d: string): (r: Option<GitRef>)
    ensures r.Some? ==> Contains(d, GitMarker + r.value.location + GitSuffix)
    ensures !Contains(d, GitMarker) ==> r.None?
    ensures r.Some? ==> '\n' !in r.value.location
    ensures r.Some? ==> !Contains(r.value.location, GitSuffix)
  {
    GitSearchFromFacts(d, 0);
    match GitSearchFrom(d, 0)
    case None => None
    case Some(m) => Some(RefOf(m))
  }

  /** Python truthiness of an optional group: an empty subdirectory counts as
      none. */
  function NonEmpty(s: Option<string>): (r: Option<string>)
    ensures r.Some? <==> s.Some? && s.value != ""
    ensures r.Some? ==> r == s
  {
    if s.Some? && s.value != "" then s else None
  }

  /** Skipping start positions where the marker cannot begin does not change
      the search. */
  lemma {:induction false} GitSearchSkip(d: string, i: nat, m: nat)
    requires i <= m
    requires forall k :: i <= k < m ==> !OccursAt(GitMarker, d, k)
    ensures GitSearchFrom(d, i) == GitSearchFrom(d, m)
    decreases m - i
  {
    if i < m && i + |GitMarker| <= |d| {
      GitSearchSkip(d, i + 1, m);
    }
  }

  /** The optional parts after `.git`: `@ref` and `#subdirectory=sub`. */
  function RefPart(ref: Option<string>): string {
    match ref
    case Some(r) => "@" + r
    case None => ""
  }

  function SubdirPart(sub: Option<string>): string {
    match sub
    case Some(s) => SubdirMarker + s
    case None => ""
  }

  /** A declaration `name @ git+url.git[@ref][#subdirectory=sub]`. */
  function GitDeclaration(name: string, url: string, ref: Option<string>, sub: Option<string>): string {
    name + (" " + (GitMarker + (url + (GitSuffix + (RefPart(ref) + SubdirPart(sub))))))
  }

  /** After `.git`, the reference segment is skipped and the subdirectory
      group yields `sub`. */
  lemma TailParts(tail: string, ref: Option<string>, sub: Option<string>)
    requires tail == RefPart(ref) + SubdirPart(sub)
    requires ref.Some? ==> |ref.value| > 0 && '#' !in ref.value
    requires sub.Some? ==> '\n' !in sub.value
    ensures SubdirOf(tail[RefLength(tail)..]) == sub
  {
    var sp := SubdirPart(sub);
    var e := |RefPart(ref)|;
    if ref.Some? {
      var r := ref.value;
      assert tail == "@" + (r + sp);
      assert tail[1..] == r + sp;
      SpanOf(r, sp, NotHash);
    }
    assert RefLength(tail) == e;
    assert tail[e..] == sp;
    if sub.Some? {
      var s := sub.value;
      assert sp[..|SubdirMarker|] == SubdirMarker;
      assert sp[|SubdirMarker|..] == s + [];
      SpanOf(s, [], NotNewline);
    }
  }

  /** No `.git` starts inside a `.git`-free `url` that `.git` follows. */
  lemma NoSuffixInside(d: string, start: nat, url: string, k: nat)
    requires start + |url| + |GitSuffix| <= |d|
    requires d[start..start + |url|] == url
    requires OccursAt(GitSuffix, d, start + |url|)
    requires !Contains(url, GitSuffix)
    requires start <= k < start + |url|
    ensures !OccursAt(GitSuffix, d, k)
  {
    var j := start + |url|;
    assert d[j] == '.' by {
      assert d[j..j + |GitSuffix|][0] == d[j];
    }
    if OccursAt(GitSuffix, d, k) && k + |GitSuffix| <= j {
      var a := k - start;
      SliceOfSlice(d, start, start + |url|, a, a + |GitSuffix|);
      assert OccursAt(GitSuffix, url, a);
    }
  }

  /** The first `.git` at or after `start` is the one right after `url`. */
  lemma FirstSuffixAfter(d: string, start: nat, url: string)
    requires start + |url| + |GitSuffix| <= |d|
    requires d[start..start + |url|] == url
    requires OccursAt(GitSuffix, d, start + |url|)
    requires !Contains(url, GitSuffix)
    ensures FindFrom(GitSuffix, d, start) == Some(start + |url|)
  {
    forall k | start <= k < start + |url| ensures !OccursAt(GitSuffix, d, k) {
      NoSuffixInside(d, start, url, k);
    }
  }

  /** Text that reads `url.git` then `tail` matches the rest of the pattern
      with `url` as the location. */
  lemma GitTailOf(d: string, start: nat, url: string, tail: string)
    requires start <= |d| && d[start..] == url + (GitSuffix + tail)
    requires '\n' !in url && !Contains(url, GitSuffix)
    ensures GitTailAt(d, start) == Some(GitMatch(url, tail))
  {
    var j := start + |url|;
    SplitAt(d, start, url, GitSuffix + tail);
    SplitAt(d, j, GitSuffix, tail);
    FirstSuffixAfter(d, start, url);
    assert FindFrom(GitSuffix, d, start) == Some(j);
    assert '\n' !in d[start..j];
    GitTailFound(d, start, j);
  }

  /** When the first `.git` from `start` is at `j` and no newline comes
      before it, the tail matches. */
  lemma GitTailFound(d: string, start: nat, j: nat)
    requires start <= j && j + |GitSuffix| <= |d|
    requires FindFrom(GitSuffix, d, start) == Some(j)
    requires '\n' !in d[start..j]
    ensures GitTailAt(d, start) == Some(GitMatch(d[start..j], d[j + |GitSuffix|..]))
  {
  }

  /** The marker begins with `@`, so it starts nowhere else. */
  lemma MarkerStartsWithAt(d: string, k: nat)
    requires k < |d| && d[k] != '@'
    ensures !OccursAt(GitMarker, d, k)
  {
    if k + |GitMarker| <= |d| {
      assert d[k..k + |GitMarker|][0] == d[k];
    }
  }

  /** A name without `@` and the space after it cannot start the marker, so
      the search begins right after them. */
  lemma SearchAfterName(name: string, rest: string)
    requires '@' !in name
    ensures GitSearchFrom(name + (" " + rest), 0) == GitSearchFrom(name + (" " + rest), |name| + 1)
  {
    var d := name + (" " + rest);
    assert d[|name|] == ' ';
    forall k | 0 <= k < |name| + 1 ensures !OccursAt(GitMarker, d, k) {
      if k < |name| {
        assert d[k] == name[k];
      }
      MarkerStartsWithAt(d, k);
    }
    GitSearchSkip(d, 0, |name| + 1);
  }

  /** Right after the name and the space, the marker and then `rest`. */
  lemma AfterNameAndSpace(name: string, rest: string)
    ensures var d := name + (" " + (GitMarker + rest));
      && OccursAt(GitMarker, d, |name| + 1)
      && d[|name| + 1 + |GitMarker|..] == rest
  {
    var d := name + (" " + (GitMarker + rest));
    var p := |name| + 1;
    assert d[p..] == GitMarker + rest;
    assert d[p..p + |GitMarker|] == GitMarker;
  }

  /** Searching a composed declaration finds the parts it was built from:
      parsing undoes composing, provided the name has no `@`, the URL has no
      newline and no `.git` of its own, the reference is non-empty without
      `#` and the subdirectory has no newline. */
  lemma ParseGitDeclaration(name: string, url: string, ref: Option<string>, sub: Option<string>)
    requires '@' !in name
    requires '\n' !in url && !Contains(url, GitSuffix)
    requires ref.Some? ==> |ref.value| > 0 && '#' !in ref.value
    requires sub.Some? ==> '\n' !in sub.value
    ensures GitReference(GitDeclaration(name, url, ref, sub)) == Some(GitRef(url, sub))
  {
    var tail := RefPart(ref) + SubdirPart(sub);
    var rest := url + (GitSuffix + tail);
    var d := name + (" " + (GitMarker + rest));
    var p := |name| + 1;
    var start := p + |GitMarker|;
    SearchAfterName(name, GitMarker + rest);
    AfterNameAndSpace(name, rest);
    GitTailOf(d, start, url, tail);
    TailParts(tail, ref, sub);
    assert GitSearchFrom(d, p) == GitTailAt(d, start);
    assert GitSearchFrom(d, 0) == Some(GitMatch(url, tail));
  }
}

=== FILE: text.dfy ===
/** String helpers shared by the parsers: Python's notion of whitespace,
    maximal runs, word splitting and joining, substring search and
    `str.replace`. Strings are `seq<char>`. */
module Text {
  import opened Wrappers

  /** Python's `str.isspace()`, which is also what `\s` matches in a `str`
      regular expression and what `str.split()` splits on. */
  predicate IsSpace(c: char) {
    var n := c as int;
    || (0x09 <= n <= 0x0D)
    || (0x1C <= n <= 0x20)
    || n == 0x85 || n == 0xA0 || n == 0x1680
    || (0x2000 <= n <= 0x200A)
    || n == 0x2028 || n == 0x2029 || n == 0x202F || n == 0x205F || n == 0x3000
  }

  function NotSpace(c: char): bool { !IsSpace(c) }

  /** Length of the longest prefix of `s` whose characters all satisfy `keep`
      (what a greedy `[...]*` consumes). */
  function Span(s: string, keep: char -> bool): (n: nat)
    ensures n <= |s|
    ensures forall i :: 0 <= i < n ==> keep(s[i])
    ensures n < |s| ==> !keep(s[n])
    decreases |s|
  {
    if s == [] || !keep(s[0]) then 0 else 1 + Span(s[1..], keep)
  }

  /** A maximal run is unique: a prefix that keeps and is followed by a
      non-kept character (or the end) is the span. */
  lemma SpanOf(w: string, rest: string, keep: char -> bool)
    requires forall i :: 0 <= i < |w| ==> keep(w[i])
    requires rest == [] || !keep(rest[0])
    ensures Span(w + rest, keep) == |w|
  {
    var s := w + rest;
    assert forall i :: 0 <= i < |w| ==> s[i] == w[i];
    assert |w| < |s| ==> s[|w|] == rest[0];
  }

  /** A token of `str.split()`: non-empty, no whitespace. */
  predicate IsWord(w: string) {
    |w| > 0 && forall i :: 0 <= i < |w| ==> !IsSpace(w[i])
  }

  /** Python's `s.split()` with no separator: the maximal runs of
      non-whitespace characters, in order. */
  function Words(s: string): (ws: seq<string>)
    ensures forall i :: 0 <= i < |ws| ==> IsWord(ws[i])
    decreases |s|
  {
    if s == [] then []
    else if IsSpace(s[0]) then Words(s[1..])
    else
      var n := Span(s, NotSpace);
      [s[..n]] + Words(s[n..])
  }

  /** Python's `sep.join(parts)`. */
  function Join(parts: seq<string>, sep: string): string
    decreases |parts|
  {
    if |parts| == 0 then ""
    else if |parts| == 1 then parts[0]
    else parts[0] + sep + Join(parts[1..], sep)
  }

  /** Splitting words joined by single spaces gives the words back. */
  lemma {:induction false} WordsOfJoin(ws: seq<string>)
    requires forall i :: 0 <= i < |ws| ==> IsWord(ws[i])
    ensures Words(Join(ws, " ")) == ws
    decreases |ws|
  {
    if |ws| == 0 {
    } else if |ws| == 1 {
      var w := ws[0];
      SpanOf(w, [], NotSpace);
      assert w + [] == w;
      assert w[..|w|] == w;
      assert Words(w[|w|..]) == [];
    } else {
      var w := ws[0];
      var tail := Join(ws[1..], " ");
      var s := w + " " + tail;
      assert Join(ws, " ") == s;
      SpanOf(w, " " + tail, NotSpace);
      assert s == w + (" " + tail);
      assert s[..|w|] == w;
      assert s[|w|..] == " " + tail;
      assert (" " + tail)[1..] == tail;
      assert Words(" " + tail) == Words(tail);
      WordsOfJoin(ws[1..]);
      assert Words(s) == [w] + ws[1..];
    }
  }

  /** Only whitespace: `split()` finds no word exactly then. */
  lemma {:induction false} WordsOfBlank(s: string)
    ensures Words(s) == [] <==> forall i :: 0 <= i < |s| ==> IsSpace(s[i])
    decreases |s|
  {
    if s != [] {
      if IsSpace(s[0]) {
        WordsOfBlank(s[1..]);
        assert forall i :: 1 <= i < |s| ==> s[i] == s[1..][i - 1];
      }
    }
  }

  /** Leading whitespace, then a word that ends at whitespace or at the end:
      the word is the first part and splitting resumes after it. With
      WordsOfBlank this fixes `split()` as the maximal non-whitespace runs in
      order. */
  lemma {:induction false} WordsOfCons(gap: string, w: string, rest: string)
    requires forall i :: 0 <= i < |gap| ==> IsSpace(gap[i])
    requires IsWord(w)
    requires rest == [] || IsSpace(rest[0])
    ensures Words(gap + w + rest) == [w] + Words(rest)
    decreases |gap|
  {
    var s := gap + w + rest;
    if gap == [] {
      assert s == w + rest;
      SpanOf(w, rest, NotSpace);
      assert s[0] == w[0];
      assert s[..|w|] == w;
      assert s[|w|..] == rest;
    } else {
      assert s[0] == gap[0];
      assert s[1..] == gap[1..] + w + rest;
      WordsOfCons(gap[1..], w, rest);
    }
  }

  /** `pat` occurs in `s` starting at index `i`. */
  predicate OccursAt(pat: string, s: string, i: int) {
    0 <= i && i + |pat| <= |s| && s[i..i + |pat|] == pat
  }

  /** Python's `pat in s`. */
  predicate Contains(s: string, pat: string) {
    exists i | 0 <= i <= |s| :: OccursAt(pat, s, i)
  }

  /** The leftmost occurrence of `pat` in `s` at or after `from`
      (Python's `s.find(pat, from)`, with `None` for -1). */
  function FindFrom(pat: string, s: string, from: nat): (r: Option<nat>)
    ensures r.Some? ==> from <= r.value && OccursAt(pat, s, r.value)
    ensures r.Some? ==> forall k :: from <= k < r.value ==> !OccursAt(pat, s, k)
    ensures r.None? ==> forall k :: from <= k ==> !OccursAt(pat, s, k)
    decreases |s| - from
  {
    if from + |pat| > |s| then None
    else if OccursAt(pat, s, from) then Some(from)
    else FindFrom(pat, s, from + 1)
  }

  /** Python's `s.replace(pat, rep)`: every occurrence of `pat`, scanning
      left to right without overlap, becomes `rep`. */
  function ReplaceAll(s: string, pat: string, rep: string): (r: string)
    requires |pat| > 0
    ensures (forall k :: !OccursAt(pat, s, k)) ==> r == s
    decreases |s|
  {
    if |s| < |pat| then s
    else if s[..|pat|] == pat then
      assert OccursAt(pat, s, 0);
      rep + ReplaceAll(s[|pat|..], pat, rep)
    else
      assert forall k :: OccursAt(pat, s[1..], k) ==> OccursAt(pat, s, k + 1) by {
        forall k | OccursAt(pat, s[1..], k) ensures OccursAt(pat, s, k + 1) {
          assert s[1..][k..k + |pat|] == s[k + 1..k + 1 + |pat|];
        }
      }
      [s[0]] + ReplaceAll(s[1..], pat, rep)
  }

  /** An occurrence at the front is replaced and scanning resumes after it. */
  lemma ReplaceAllFront(pat: string, t: string, rep: string)
    requires |pat| > 0
    ensures ReplaceAll(pat + t, pat, rep) == rep + ReplaceAll(t, pat, rep)
  {
    assert (pat + t)[..|pat|] == pat;
    assert (pat + t)[|pat|..] == t;
  }

  /** A character that `pat` contains but `s` does not rules out every
      occurrence of `pat` in `s`. */
  lemma NoOccurrenceWithout(pat: string, s: string, c: char)
    requires c in pat && c !in s
    ensures forall k :: !OccursAt(pat, s, k)
  {
  }

  /** A slice of a slice is a slice of the original. */
  lemma SliceOfSlice(s: string, i: nat, j: nat, a: nat, b: nat)
    requires i <= j <= |s| && a <= b <= j - i
    ensures s[i..j][a..b] == s[i + a..i + b]
  {
    assert forall m :: 0 <= m < b - a ==> s[i..j][a..b][m] == s[i + a..i + b][m];
  }

  /** Text that reads `a` then `b` from `start` splits there. */
  lemma SplitAt(s: string, start: nat, a: string, b: string)
    requires start <= |s| && s[start..] == a + b
    ensures start + |a| <= |s|
    ensures s[start..start + |a|] == a && s[start + |a|..] == b
  {
    assert |s[start..]| == |a| + |b|;
    forall m | 0 <= m < |a| ensures s[start..start + |a|][m] == a[m] {
      assert s[start + m] == s[start..][m] == (a + b)[m];
    }
    forall m | 0 <= m < |b| ensures s[start + |a|..][m] == b[m] {
      assert s[start + |a| + m] == s[start..][|a| + m] == (a + b)[|a| + m];
    }
  }
}

=== FILE: wrappers.dfy ===
/** Optional values and results with an error, used wherever the source
    returns `None` or raises. */
module Wrappers {

  datatype Option<+T> = None | Some(value: T) {

    /** The value, or `default` when absent (Python's `dict.get(key, default)`). */
    function GetOr(default: T): T {
      match this
      case Some(v) => v
      case None => default
    }
  }

  datatype Result<+T, +E> = Success(value: T) | Failure(error: E)
}
